=== FILE: README.md ===
# Jam session and techno loop: note lifecycle model

This project models the real-time core of a generative MIDI performance tool in
Dafny. The tool has two engines.

- **The interactive jam session** (`jam_session.py`, class `InteractiveJamSession`).
  A background loop walks 16 bars of 4 beats. On each beat it asks the drum, bass and
  melody pattern generators what to play. Each `play_*` call gates the voice, sends a
  note-on and starts a timer that sends the matching note-off later. A text menu
  changes tempo, voices, intensities, key, scale and patterns while the loop runs.
- **The fixed techno loop** (`midi_generator.py`, `play_techno_loop`). The same
  bar/beat loop plays a fixed kick/snare/hi-hat/bass/melody groove. It switches the
  drums off inside each beat. Bass and melody notes go into two lists of
  (note, off time), and a sweep at the end of every beat releases the due ones. When
  Ctrl+C ends the loop, a final flush releases whatever is left in the lists.

The model's central property is the note lifecycle guarantee. Once the jam's
timers have run out, or the corrected flush of the techno loop has run (or the loop
was stopped between beats), every note-on has been
matched by exactly one note-off with the same channel and pitch, and every note-off
has velocity 0. It is stated with multisets of (channel, note) keys: the keys
switched on equal the keys switched off plus the keys still owed. Overlapping notes
on the same pitch are allowed, as in the source.

The source does not reach that end state on every path. The jam's timers run in
daemon threads, and quitting does not wait for them. The techno loop's flush skips
the drum notes of an interrupted beat. Both are under "## Findings", each with the
program as written and a corrected version.

Modules:

- `Midi`: messages and key multisets.
- `BeatClock`: the 16×4 loop and its play-flag checks.
- `Scales`: the scale table.
- `SessionControl`: the session parameters and the menu handlers.
- `Patterns`: the jam's per-beat decisions, gating and velocities.
- `NoteScheduler`: the jam's note-off timers.
- `TechnoLoop`: the fixed techno loop and its shutdown.

Randomness, the clock and the play flag are inputs. Each beat's random draws are a
record whose fields are restricted to what the random module can return. Clock
readings are real numbers. The play flag is the number of flag checks that read
true before the first one that reads false. Python's `int()` on a float is
truncation toward zero (`Patterns.Trunc`). Python floats are idealised as
mathematical reals.

## Model

| member | source | states |
|---|---|---|
| Scales.Intervals | jam_session.py:38-44 | each of the four scales starts at its tonic, rises strictly, stays within one octave and has 5 to 7 degrees |
| Scales.CurrentScale | jam_session.py:66-70 | the scale has one pitch per interval, pitch i being exactly 60 + key root + interval i |
| Scales.ScaleAscending | jam_session.py:66-70 | the scale starts at 60 + key root and its pitches strictly ascend |
| Scales.ScaleRange | jam_session.py:66-70 | for key roots 0..11 every scale pitch lies in 60..82 |
| Scales.ScaleTransposes | jam_session.py:66-70 | changing the key root by k moves every degree by exactly k |
| Scales.CMajor | jam_session.py:40 | C major (key 0, scale 0) is 60, 62, 64, 65, 67, 69, 71 |
| SessionControl.Initial | jam_session.py:14-51 | the constructed session is valid and not playing, on the given port: 128 BPM and a 60/128 s beat, all three voices enabled, intensities 1.0, 0.8 and 0.3, key C, the major scale (pitches 60, 62, 64, 65, 67, 69, 71), basic drum and bass patterns |
| SessionControl.Clamp | jam_session.py:342-344 | the result lies in [0, 1]; an in-range value is unchanged, values below 0 become 0 and values above 1 become 1 |
| SessionControl.ClampIdempotent | jam_session.py:342-344 | clamping twice is clamping once |
| SessionControl.SetBpm | jam_session.py:311-321 | a tempo in 60..200 is taken and the beat length becomes 60/bpm; any other tempo leaves the session unchanged; no other field changes; validity is kept |
| SessionControl.TempoBounds | jam_session.py:314-316 | both bounds are inclusive (60 gives 1.0 s beats, 200 gives 0.3 s); 59 and 201 are refused |
| SessionControl.SetIntensities | jam_session.py:335-348 | each intensity becomes max(0, min(1, x)) of its input, so it ends up in [0, 1] and in-range inputs are taken as given; only the three intensities change |
| SessionControl.SetKey | jam_session.py:350-363 | the key root becomes the input exactly when the input is one of the twelve keys; otherwise nothing changes |
| SessionControl.SetScale | jam_session.py:365-378 | the scale type becomes the input exactly when the input names one of the four scales; otherwise nothing changes |
| SessionControl.SetPatterns | jam_session.py:380-395 | each pattern selector is taken on its own iff it is 0 or 1; nothing else changes |
| SessionControl.Toggle | jam_session.py:323-333 | exactly the chosen voice's flag flips |
| SessionControl.ToggleTwice | jam_session.py:323-333 | toggling a voice twice restores the session |
| SessionControl.Start | jam_session.py:221-227 | afterwards the session is playing; a session already playing is left alone; nothing else changes |
| SessionControl.Stop | jam_session.py:229-233 | afterwards the session is not playing and nothing else changes (no timer is touched) |
| SessionControl.Apply | jam_session.py:291-398 | no menu choice opens or closes the port; only [1] starts the jam; [0] and [2] stop it; [3] changes nothing; choices [4] to [9] are exactly the tempo, voice, intensity, key, scale and pattern handlers, and leave the play flag alone |
| SessionControl.ApplyAll | jam_session.py:291-403 | over a run of the menu the port stays as it was; once [0] is typed the jam is stopped; without [1] a stopped jam stays stopped |
| SessionControl.ApplyAllAppend | jam_session.py:291-403 | before any [0], running the menu on two runs of commands one after the other is running it on both joined |
| SessionControl.ApplyAllLast | jam_session.py:291-403 | without [0], the session after the menu is the last command's handler applied to the session before that command |
| SessionControl.ApplyAllQuit | jam_session.py:297-300 | the commands before the first [0] take effect in order, then the jam stops, and nothing after [0] is read |
| SessionControl.ApplyKeepsValid | jam_session.py:291-398 | every menu command keeps the session valid |
| SessionControl.ApplyAllKeepsValid | jam_session.py:291-398 | any sequence of menu commands keeps the session valid |
| SessionControl.QuitEndsSession | jam_session.py:297-300 | choice 0 stops the jam, and nothing typed after it takes effect |
| Patterns.Trunc | jam_session.py:72-124 | Python's int() on a float: the result is within one of the input, toward zero |
| Patterns.Velocity | jam_session.py:76-124 | int(base + span × intensity) lies in base..base+span for an intensity in [0, 1] |
| Patterns.VelocityEnds | jam_session.py:76-124 | intensity 0 gives exactly the base velocity and intensity 1 gives exactly base + span |
| Patterns.VelocityMonotone | jam_session.py:76-124 | raising an intensity never lowers the velocity |
| Patterns.Play | jam_session.py:72-130 | a play_* call produces a note iff the port is open and the voice is enabled; kick, snare and hi-hat give notes 36, 38, 42 on channel 9 with velocities int(100 + 27·d), int(90 + 30·d), int(60 + 30·d) for the drum intensity d and timers of 0.1, 0.1 and 0.05 s; bass and melody keep the requested pitch and duration on channels 1 and 2 with int(80 + 30·b) and int(70 + 30·m); with intensities in [0, 1] every note is a valid MIDI note in its velocity window |
| Patterns.PlayAll | jam_session.py:197-213 | one beat's play calls: no more notes than requests, only enabled voices sound, nothing with the port closed, and the notes are valid; every request that plays a note contributes that note; when every voice is enabled, note i is exactly what request i plays |
| Patterns.PlayAllFrom | jam_session.py:197-213 | every note of a beat is exactly what one of that beat's requests plays |
| Patterns.BeatRequests | jam_session.py:197-213 | the requests of every beat, whatever the patterns and draws, end with the hi-hat |
| Patterns.BeatTriggers | jam_session.py:197-213 | a beat plays at most one note per request; every request of the beat that plays a note contributes that note; only enabled voices sound, nothing with the port closed, and at least one note (the hi-hat) when the drums are on |
| Patterns.BeatTriggersFrom | jam_session.py:197-213 | every note of a beat is what one of that beat's requests plays |
| Patterns.DrumBasic | jam_session.py:132-136 | a kick on every beat, exactly once, and a snare iff the beat is odd |
| Patterns.DrumBreaks | jam_session.py:138-150 | a kick iff beat 0, or beat 2 with draw > 0.3, or beat 3 with draw > 0.7; a snare iff beat 1 or 3; each at most once |
| Patterns.BreaksBeatOne | jam_session.py:142-143 | beat 1 of the breakbeat pattern is exactly one snare |
| Patterns.BassBasic | jam_session.py:152-157 | bass iff beat 0 or 2 and the draw is below the bass intensity; the pitch is the scale degree picked by the bar, 24 semitones down; duration 0.7 s |
| Patterns.BassAcid | jam_session.py:159-166 | bass iff the draw is below the bass intensity (on any beat); a drawn degree 24 semitones down, plus 3 iff the shift draw exceeds 0.7; duration 0.3 s |
| Patterns.MelodySparse | jam_session.py:168-173 | melody iff beat 0 of a bar divisible by 4 and the draw is below the melody intensity; a note of the current scale; duration 1.5 s |
| Patterns.BassRange | jam_session.py:152-166 | in a valid session every bass pitch lies in 36..61 |
| Patterns.MelodyRange | jam_session.py:168-173 | in a valid session every melody pitch lies in 60..82 |
| Patterns.BeatTriggersOk | jam_session.py:197-213 | in a valid session every note of a beat is a valid MIDI note in its voice's velocity window |
| Patterns.DisabledVoiceSilent | jam_session.py:72-130 | a disabled voice gets no note at all in any beat |
| Patterns.HiHatEveryBeat | jam_session.py:212-213 | with drums on, every beat ends with a hi-hat of velocity 60..90 and a 0.05 s timer |
| Patterns.SilentAtZeroIntensity | jam_session.py:152-173 | at intensity 0, bass (both patterns) and melody never fire |
| Patterns.AlwaysAtFullIntensity | jam_session.py:152-173 | at intensity 1 the gates always pass where the beat allows |
| BeatClock.Next | jam_session.py:186-191 | the beat after any in-range beat is again in range |
| BeatClock.PosOfSucc | jam_session.py:182-193 | consecutive beats of a run advance beat, then bar, then the loop counter |
| BeatClock.PosOfSplit | jam_session.py:186-191 | beat number k·64 + 4·bar + beat of a run is (loop k, bar, beat) |
| BeatClock.FirstBeat | jam_session.py:182-183 | a run starts at bar 0, beat 0 with the loop counter one higher |
| BeatClock.Positions | jam_session.py:182-193 | a run starts at bar 0, beat 0 with the loop counter one higher, every beat is in range, and each beat is the successor of the one before: beat, then bar, then loop counter |
| BeatClock.PlayLoop | midi_generator.py:67-81 | the beats played are a prefix of the bar/beat order; the loop counter rises iff the flag was ever seen true; whole loops of 64 beats and 16 bars; each bar entered plays at most 4 beats and every bar but the last all 4; every flag check that reads true is a loop, bar or beat entry |
| NoteScheduler.Schedule | jam_session.py:72-130 | a play call sends exactly its note-on and appends one timer for it, due the note's duration after the clock reading, and keeps the pairing invariant |
| NoteScheduler.Fire | jam_session.py:72-130 | a timer fires only at or after its deadline; it sends one velocity-0 note-off for its key, removes itself and keeps the pairing invariant |
| NoteScheduler.FireAnyKeepsInv | jam_session.py:72-130 | any due timer may fire, in any order, also between the sends of a beat, without breaking the pairing or changing what was sent before |
| NoteScheduler.Earliest | jam_session.py:72-130 | the next timer to fire has the earliest deadline |
| NoteScheduler.FireAll | jam_session.py:80-130 | once every running timer has fired, none is left, and every key switched on has been switched off |
| NoteScheduler.ScheduleAll | jam_session.py:197-213 | a beat's notes are switched on in order; each appends its own timer, due its duration after the beat's clock reading; the keys switched on and the keys owed both grow by exactly the beat's keys; the pairing invariant is kept |
| NoteScheduler.RunBeats | jam_session.py:175-219 | the beats send no note-off; the keys switched on and the keys owed each grow by exactly the notes the beats play; every running timer stays in place and each beat's notes append their timers, due from that beat's clock reading |
| NoteScheduler.DrumBeatStartsTimer | jam_session.py:197-213 | any beat played with the drums on and the port open leaves at least one more timer running |
| NoteScheduler.BeatTimers | jam_session.py:197-213 | a run of beats starts at least one timer for every beat played with the drums on and the port open |
| NoteScheduler.DrumBeatTimers | jam_session.py:197-213 | a run containing a beat with the drums on and the port open starts at least one timer |
| NoteScheduler.RunBeatsKeepsInv | jam_session.py:175-219 | any number of beats, whatever the parameters did between them, keep every note-on matched by a sent note-off or a running timer |
| NoteScheduler.JamNotesPaired | jam_session.py:175-233 | however long the jam ran before stop, once the timers run out before exit every note-on has exactly one velocity-0 note-off |
| NoteScheduler.QuitLeavesNoteOn | jam_session.py:224-225 | quitting exits without the running timers: any state with a timer still running has a key switched on more often than off, so the trace is unbalanced |
| NoteScheduler.QuitAfterBeatLeavesNoteOn | jam_session.py:297-300 | quitting right after a beat with the drums on, before any of the run's timers has fired, leaves the trace unbalanced |
| NoteScheduler.NoStrayNoteOff | jam_session.py:72-130 | at any moment no key has been switched off more often than on |
| TechnoLoop.BassChoice | midi_generator.py:99-102 | bass iff beat 0 or 2 and the draw exceeds 0.2; its pitch is entry (bar / 4) mod 4 of 36, 38, 41, 43 |
| TechnoLoop.BassFollowsBarGroups | midi_generator.py:101-102 | the bass pitch is constant within each group of four bars and repeats every sixteen bars |
| TechnoLoop.MelodyChoice | midi_generator.py:109-112 | melody iff beat 0 of a bar divisible by 4 and the draw exceeds 0.4; a note of 60, 62, 65, 67, 69, 72 |
| TechnoLoop.Onsets | midi_generator.py:86-117 | the onsets send only valid note-ons: the kick always, the snare iff beat 1 or 3, then the chosen bass and melody notes; they keep the trace as a prefix and add a bass entry due 0.7 s after the beat start (a melody entry 1.5 s) exactly when it sounds |
| TechnoLoop.OnsetMessagesContent | midi_generator.py:86-117 | every onset message is a valid note-on with its velocity in the drawn range; the kick is always sent, the snare iff beat 1 or 3 |
| TechnoLoop.HiHat | midi_generator.py:122-125 | the hi-hat appends exactly one valid note-on for note 42 and leaves the lists alone |
| TechnoLoop.Sweep | midi_generator.py:143-163 | the sweep loop sends one velocity-0 note-off per due entry, in list order, and keeps exactly the entries not yet due |
| TechnoLoop.SweepPartition | midi_generator.py:143-163 | an entry is released iff it is due and kept iff not; nothing is added, lost or duplicated |
| TechnoLoop.SweepKeepsOrder | midi_generator.py:144-152 | kept and released entries keep their relative order |
| TechnoLoop.SweepKeys | midi_generator.py:143-163 | the keys of a list are the keys released plus the keys kept |
| TechnoLoop.Offs | midi_generator.py:130-163 | the offs append only note-offs: the kick and the hi-hat always, the snare on beats 1 and 3, then the due bass and melody entries; afterwards the lists hold exactly the entries not yet due |
| TechnoLoop.OffMessagesContent | midi_generator.py:130-138 | a beat's note-offs are all note-offs and include the kick and the hi-hat, and the snare on beats 1 and 3 |
| TechnoLoop.OnsetsSound | midi_generator.py:86-117 | after the onsets, the owed keys are the kick, the snare on beats 1 and 3, and the list entries |
| TechnoLoop.HiHatSound | midi_generator.py:122-125 | after the hi-hat, the hi-hat is also owed |
| TechnoLoop.OffsSound | midi_generator.py:130-163 | the offs release every drum note of the beat and every due entry, so only list entries remain owed |
| TechnoLoop.Beat | midi_generator.py:83-169 | a beat only appends to the trace; the new part switches the kick and the hi-hat on and off, and the snare on iff beat 1 or 3, and then off; the lists become the old lists plus this beat's bass and melody entries, less every entry due at the sweep, so no held note is due |
| TechnoLoop.BeatTrace | midi_generator.py:83-163 | the messages a beat appends switch its drums on and off, with the snare on iff beat 1 or 3 |
| TechnoLoop.BeatLists | midi_generator.py:99-163 | after a beat the lists hold the old entries and this beat's, less those due at the sweep |
| TechnoLoop.BeatKeepsInv | midi_generator.py:83-169 | a full beat leaves no drum note sounding and every bass or melody note either released or in its list |
| TechnoLoop.RunBeats | midi_generator.py:67-169 | a run of beats only appends to the trace, at least four messages a beat |
| TechnoLoop.RunBeatsKeepsInv | midi_generator.py:67-169 | any number of full beats keep that invariant |
| TechnoLoop.Shutdown | midi_generator.py:177-185 | the flush empties both lists and sends one message per entry |
| TechnoLoop.ShutdownReleasesLists | midi_generator.py:177-185 | the flush releases exactly the keys left in the two lists |
| TechnoLoop.StopBetweenBeatsPaired | midi_generator.py:66-185 | stopped between beats, the run ends with every note-on matched by exactly one velocity-0 note-off |
| TechnoLoop.Interrupted | midi_generator.py:116-128 | an interrupt between beats changes nothing; inside a beat the trace has grown by note-ons only, the kick among them; in the note-off delay the hi-hat was the last message |
| TechnoLoop.RunAsWritten | midi_generator.py:66-185 | a run as written ends with both lists empty and at least four messages per full beat, and an interrupt inside a beat has sent its kick |
| TechnoLoop.AsWrittenPairedBetweenBeats | midi_generator.py:173-185 | the flush as written is enough when the interrupt lands between beats |
| TechnoLoop.InterruptLeavesKickOn | midi_generator.py:119-185 | the flush as written, after an interrupt inside a beat: the kick has one more note-on than note-off, so the trace is not balanced |
| TechnoLoop.ShutdownAll | midi_generator.py:177-185 | the corrected flush also releases the interrupted beat's drums; both lists end empty |
| TechnoLoop.ShutdownNothingLeft | midi_generator.py:177-185 | with no drum note left on, the corrected flush is the flush as written |
| TechnoLoop.RunCorrected | midi_generator.py:66-185 | the corrected run sends exactly the note-offs of the drums left on in addition to the run as written, and is that run when the interrupt lands between beats |
| TechnoLoop.CorrectedShutdownPaired | midi_generator.py:177-185 | from any state whose owed keys are some drum notes plus the lists, the corrected flush balances the trace |
| TechnoLoop.TechnoNotesPaired | midi_generator.py:66-185 | with the corrected flush, wherever the interrupt lands, every note-on has exactly one velocity-0 note-off |

## Left out

- MIDI I/O through mido: port discovery (`setup_midi`, `setup_midi_port`), opening and closing ports, and the actual sends. A send is an append to a message trace. `portOpen` stands for "an output port is connected".
- NoteScheduler.JamNotesPaired: holds only if every running timer fires before the program exits. As written, quitting does not wait for the timers; that path is `NoteScheduler.QuitLeavesNoteOn`, listed under "## Findings".
- One clock reading per jam beat. All notes of a beat get their timers from the same reading. In the source each `play_*` call starts its own `threading.Timer`, which reads the clock at that moment, so the deadlines of one beat's notes may differ slightly.
- Real threads and timers. The jam's timers are a list of pending note-offs that fire one at a time, in any order, each atomically. Sleeping, clocks and drift are out; clock readings are inputs.
- Torn reads of the parameters inside one jam beat. Each beat reads one snapshot of the parameters, and the parameters may change arbitrarily between beats.
- The small race in `start_jam`. The flag is raised by the loop thread, not by `start_jam` itself, so two quick starts could launch two loops. `SessionControl.Start` raises the flag at once.
- The play flag is monotone during a run: once a check reads false the loop is over. A flag cleared and set again between two checks is out.
- `print`, `get_status`, `show_menu`, parsing of the typed input (`int()`/`float()` and their `ValueError` branches, empty input defaulting to the current value), and `setup.py`. Commands carry the numbers already parsed.
- The jam's `loop_count` attribute is not a field of `SessionControl.Session`. The loop increments it, and the status text reads it. It is the counter `lc` of `BeatClock.PlayLoop`, which starts from any `lc0`, 0 included.
- Keyboard interrupts in the techno loop land only in its sleeps. An interrupt between two sends, for example in the middle of a sweep, is out.
- Python floats. Reals are exact, so rounding in `60.0 / bpm` or in the velocity products is not modelled.
- Patterns.BassAcid: its beat test `beat % 1 == 0` is always true, so the model fires on every beat, as the source does. The source may have meant a stricter test.
- BeatClock.PlayLoop: in the source the flag is never cleared inside the techno loop except by the interrupt, so that loop only ends through `KeyboardInterrupt`. The method covers both engines' loop structure with the flag as an input.

## Findings

| source | as written | input that shows it | evidently intended | confidence | as-written member | corrected member |
|---|---|---|---|---|---|---|
| jam_session.py:224-225 | the jam thread is a daemon, and its note-off timers inherit that; [0] (lines 297-300) and Ctrl+C at the menu (lines 400-403) only clear the play flag and leave `main`, so the interpreter exits without waiting for the timers | [0] within 1.5 s of a beat that played a melody note, or within 0.05 s of any beat with the drums on: that note's note-off is never sent | the running timers fire, or are joined, before the program exits | medium, not executed | NoteScheduler.QuitLeavesNoteOn | NoteScheduler.JamNotesPaired |
| midi_generator.py:177-185 | the final flush releases only the bass and melody lists; drum notes switched on in the interrupted beat get no note-off | Ctrl+C during the half-beat sleep of line 120 in any beat, the very first included: the kick (and the snare on beats 1 and 3) stays on; during the sleep of line 128 the hi-hat too | "stop all active notes" also releases the drum notes of the beat that was cut short | medium, not executed | TechnoLoop.InterruptLeavesKickOn | TechnoLoop.TechnoNotesPaired |

=== FILE: beat_clock.dfy ===
/** The loop structure shared by both engines: while the play flag holds, bump the
    loop counter, then walk 16 bars of 4 beats, checking the flag before every bar
    and every beat (jam_session.py jam_loop, midi_generator.py play_techno_loop).

    The flag is cleared by another party at an arbitrary moment and never set again
    while the loop runs, so a run is fully described by how many flag checks read
    `true` before the first one that reads `false`: that number is `limit` below. */
module BeatClock {

  const BeatsPerBar: nat := 4
  const BarsPerLoop: nat := 16

  /** A beat as the loop body sees it: the loop counter, the bar and the beat. */
  datatype Pos = Pos(loop: nat, bar: nat, beat: nat)

  predicate InRange(p: Pos) {
    p.bar < BarsPerLoop && p.beat < BeatsPerBar
  }

  /** The beat that follows p: next beat of the bar, else first beat of the next
      bar, else first beat of the next loop. */
  function Next(p: Pos): (q: Pos)
    requires InRange(p)
    ensures InRange(q)
  {
    if p.beat + 1 < BeatsPerBar then p.(beat := p.beat + 1)
    else if p.bar + 1 < BarsPerLoop then Pos(p.loop, p.bar + 1, 0)
    else Pos(p.loop + 1, 0, 0)
  }

  /** Closed form of the i-th beat (from 0) of a run whose counter started at lc0;
      a loop is 16 bars of 4 beats, 64 beats in all. */
  function PosOf(lc0: nat, i: nat): (p: Pos)
    ensures InRange(p)
  {
    Pos(lc0 + 1 + i / 64, (i % 64) / 4, i % 4)
  }

  /** The first n beats of a run, in the order they are played. */
  function Positions(lc0: nat, n: nat): (ps: seq<Pos>)
    ensures |ps| == n
    ensures forall i :: 0 <= i < n ==> ps[i] == PosOf(lc0, i)
    ensures forall i :: 0 <= i < n ==> InRange(ps[i])
    ensures n > 0 ==> ps[0] == Pos(lc0 + 1, 0, 0)
    ensures forall i :: 0 <= i < n - 1 ==> ps[i + 1] == Next(ps[i])
  {
    assert forall i :: 0 <= i < n - 1 ==> PosOf(lc0, i + 1) == Next(PosOf(lc0, i)) by {
      forall i | 0 <= i < n - 1
        ensures PosOf(lc0, i + 1) == Next(PosOf(lc0, i))
      {
        PosOfSucc(lc0, i);
      }
    }
    seq(n, (i: int) requires 0 <= i < n => PosOf(lc0, i))
  }

  /** Decomposing a beat count into whole loops, bars and beats gives its position. */
  lemma PosOfSplit(lc0: nat, k: nat, bar: nat, beat: nat)
    requires bar < 16 && beat < 4
    ensures PosOf(lc0, k * 64 + bar * 4 + beat) == Pos(lc0 + 1 + k, bar, beat)
  {
    var i := k * 64 + bar * 4 + beat;
    var r := bar * 4 + beat;
    assert 0 <= r < 64;
    assert i / 64 == k && i % 64 == r;
    assert r / 4 == bar && r % 4 == beat;
    assert i % 4 == beat by {
      assert i == (k * 16 + bar) * 4 + beat;
    }
  }

  /** The run starts at bar 0, beat 0 of the next loop. */
  lemma FirstBeat(lc0: nat)
    ensures PosOf(lc0, 0) == Pos(lc0 + 1, 0, 0)
  {
  }

  /** Consecutive beats of a run are consecutive positions: bars 0..15, beats 0..3,
      in order, the loop counter rising by one after each bar 15, beat 3. */
  lemma PosOfSucc(lc0: nat, i: nat)
    ensures PosOf(lc0, i + 1) == Next(PosOf(lc0, i))
  {
    var k := i / 64;
    var bar := (i % 64) / 4;
    var beat := i % 4;
    assert i == k * 64 + bar * 4 + beat;
    PosOfSplit(lc0, k, bar, beat);
    if beat + 1 < 4 {
      PosOfSplit(lc0, k, bar, beat + 1);
    } else if bar + 1 < 16 {
      PosOfSplit(lc0, k, bar + 1, 0);
    } else {
      PosOfSplit(lc0, k + 1, 0, 0);
    }
  }

  /** The loop, check by check. `limit` is the number of play-flag checks that read
      true; `bars` counts bar bodies entered, `lc` is the loop counter at the end
      and `visited` lists the beats played. */
  method PlayLoop(lc0: nat, limit: nat) returns (lc: nat, bars: nat, visited: seq<Pos>)
    ensures visited == Positions(lc0, |visited|)
    ensures lc == lc0 <==> limit == 0
    ensures lc > lc0 ==> (lc - lc0 - 1) * 64 <= |visited| <= (lc - lc0) * 64
    ensures bars <= (lc - lc0) * 16
    ensures limit == |visited| + bars + (lc - lc0)
    ensures |visited| <= 4 * bars && (bars > 0 ==> 4 * (bars - 1) <= |visited|)
    ensures lc > lc0 ==> 16 * (lc - lc0 - 1) <= bars
  {
    lc := lc0;
    bars := 0;
    visited := [];
    var seen := 0;
    while seen < limit
      invariant seen <= limit
      invariant lc >= lc0
      invariant visited == Positions(lc0, |visited|)
      invariant |visited| == (lc - lc0) * 64 || seen == limit
      invariant lc > lc0 ==> (lc - lc0 - 1) * 64 <= |visited|
      invariant |visited| <= (lc - lc0) * 64
      invariant bars <= (lc - lc0) * 16
      invariant bars == (lc - lc0) * 16 || seen == limit
      invariant lc == lc0 ==> seen == 0
      invariant seen == |visited| + bars + (lc - lc0)
      invariant |visited| <= 4 * bars && (bars > 0 ==> 4 * (bars - 1) <= |visited|)
      invariant lc > lc0 ==> 16 * (lc - lc0 - 1) <= bars
      decreases limit - seen
    {
      seen := seen + 1;
      lc := lc + 1;
      var bar := 0;
      ghost var base := |visited|;
      while bar < 16 && seen < limit
        invariant seen <= limit
        invariant bar <= 16
        invariant base == (lc - lc0 - 1) * 64
        invariant visited == Positions(lc0, |visited|)
        invariant |visited| == base + bar * 4 || seen == limit
        invariant base <= |visited| <= base + bar * 4
        invariant bars == (lc - lc0 - 1) * 16 + bar
        invariant seen == |visited| + bars + (lc - lc0)
        invariant |visited| <= 4 * bars && (bars > 0 ==> 4 * (bars - 1) <= |visited|)
        decreases 16 - bar
      {
        seen := seen + 1;
        bars := bars + 1;
        var beat := 0;
        while beat < 4 && seen < limit
          invariant seen <= limit
          invariant beat <= 4
          invariant visited == Positions(lc0, |visited|)
          invariant |visited| == base + bar * 4 + beat
          invariant bars == (lc - lc0 - 1) * 16 + bar + 1
          invariant seen == |visited| + bars + (lc - lc0)
          decreases 4 - beat
        {
          seen := seen + 1;
          PosOfSplit(lc0, lc - lc0 - 1, bar, beat);
          visited := visited + [Pos(lc, bar, beat)];
          beat := beat + 1;
        }
        bar := bar + 1;
      }
    }
  }
}

=== FILE: midi.dfy ===
/** MIDI messages as both engines send them, and the bookkeeping used to state
    that note-ons and note-offs pair up: the multiset of (channel, note) keys
    that were switched on, against the multiset that was switched off. */
module Midi {

  /** A value that may be absent: a play_* call that is gated off sends nothing. */
  datatype Option<+T> = None | Some(value: T)

  /** Channels are 0-based, as the port library numbers them. */
  const DrumChannel: int := 9
  const BassChannel: int := 1
  const MelodyChannel: int := 2

  const KickNote: int := 36
  const SnareNote: int := 38
  const HiHatNote: int := 42

  datatype Message =
    | NoteOn(channel: int, note: int, velocity: int)
    | NoteOff(channel: int, note: int, velocity: int)

  /** What identifies a sounding note: a note-off releases the note-on with the same key. */
  datatype Key = Key(channel: int, note: int)

  /** Channel, note and velocity all lie in the ranges a MIDI message can carry. */
  predicate ValidMessage(m: Message) {
    0 <= m.channel < 16 && 0 <= m.note < 128 && 0 <= m.velocity < 128
  }

  /** Keys of the note-ons in a trace, with multiplicity. */
  function OnKeys(trace: seq<Message>): multiset<Key>
  {
    if trace == [] then multiset{}
    else (if trace[0].NoteOn? then multiset{Key(trace[0].channel, trace[0].note)} else multiset{})
         + OnKeys(trace[1..])
  }

  /** Keys of the note-offs in a trace, with multiplicity. */
  function OffKeys(trace: seq<Message>): multiset<Key>
  {
    if trace == [] then multiset{}
    else (if trace[0].NoteOff? then multiset{Key(trace[0].channel, trace[0].note)} else multiset{})
         + OffKeys(trace[1..])
  }

  /** Every note switched on has been switched off exactly as many times, key by key. */
  predicate Balanced(trace: seq<Message>) {
    OnKeys(trace) == OffKeys(trace)
  }

  /** Every note-off in the trace carries velocity 0. */
  predicate OffsSilent(trace: seq<Message>) {
    forall i :: 0 <= i < |trace| && trace[i].NoteOff? ==> trace[i].velocity == 0
  }

  /** The keys (channel, n) for each note n, with multiplicity. */
  function Keys(channel: int, notes: seq<int>): multiset<Key>
  {
    if notes == [] then multiset{} else multiset{Key(channel, notes[0])} + Keys(channel, notes[1..])
  }

  /** One note-off with velocity 0 for each note, in order. */
  function Releases(channel: int, notes: seq<int>): (r: seq<Message>)
    ensures |r| == |notes|
    ensures forall i :: 0 <= i < |r| ==> r[i] == NoteOff(channel, notes[i], 0)
  {
    if notes == [] then [] else [NoteOff(channel, notes[0], 0)] + Releases(channel, notes[1..])
  }

  lemma {:induction false} OnKeysAppend(a: seq<Message>, b: seq<Message>)
    ensures OnKeys(a + b) == OnKeys(a) + OnKeys(b)
  {
    if a != [] {
      assert (a + b)[1..] == a[1..] + b;
      OnKeysAppend(a[1..], b);
    } else {
      assert a + b == b;
    }
  }

  lemma {:induction false} OffKeysAppend(a: seq<Message>, b: seq<Message>)
    ensures OffKeys(a + b) == OffKeys(a) + OffKeys(b)
  {
    if a != [] {
      assert (a + b)[1..] == a[1..] + b;
      OffKeysAppend(a[1..], b);
    } else {
      assert a + b == b;
    }
  }

  lemma {:induction false} KeysAppend(channel: int, a: seq<int>, b: seq<int>)
    ensures Keys(channel, a + b) == Keys(channel, a) + Keys(channel, b)
  {
    if a != [] {
      assert (a + b)[1..] == a[1..] + b;
      KeysAppend(channel, a[1..], b);
    } else {
      assert a + b == b;
    }
  }

  /** Releasing a list of notes switches nothing on and switches off exactly their keys. */
  lemma {:induction false} ReleasesKeys(channel: int, notes: seq<int>)
    ensures OnKeys(Releases(channel, notes)) == multiset{}
    ensures OffKeys(Releases(channel, notes)) == Keys(channel, notes)
    ensures OffsSilent(Releases(channel, notes))
  {
    if notes != [] {
      var r := Releases(channel, notes);
      assert r[1..] == Releases(channel, notes[1..]);
      ReleasesKeys(channel, notes[1..]);
    }
  }

  lemma OffsSilentAppend(a: seq<Message>, b: seq<Message>)
    requires OffsSilent(a) && OffsSilent(b)
    ensures OffsSilent(a + b)
  {
    forall i | 0 <= i < |a + b| && (a + b)[i].NoteOff?
      ensures (a + b)[i].velocity == 0
    {
      if i >= |a| {
        assert (a + b)[i] == b[i - |a|];
      }
    }
  }

  /** Sending one more message adds its key to exactly one of the two multisets. */
  lemma SendOne(trace: seq<Message>, m: Message)
    ensures OnKeys(trace + [m]) == OnKeys(trace) + (if m.NoteOn? then multiset{Key(m.channel, m.note)} else multiset{})
    ensures OffKeys(trace + [m]) == OffKeys(trace) + (if m.NoteOff? then multiset{Key(m.channel, m.note)} else multiset{})
    ensures OffsSilent(trace) && (m.NoteOff? ==> m.velocity == 0) ==> OffsSilent(trace + [m])
  {
    OnKeysAppend(trace, [m]);
    OffKeysAppend(trace, [m]);
    assert [m][1..] == [];
    if OffsSilent(trace) && (m.NoteOff? ==> m.velocity == 0) {
      OffsSilentAppend(trace, [m]);
    }
  }
}

=== FILE: note_scheduler.dfy ===
/** The jam session's note lifecycle. Each play_* call sends a note-on at once and
    starts a timer that later sends the matching note-off (jam_session.py
    play_kick .. play_melody_note). The timers are modelled as a list of pending
    note-offs: scheduling a trigger appends one, and a timer firing removes its
    entry and appends the note-off to the output trace. Nothing ever cancels a
    timer, so stopping the session does not touch this state. */
module NoteScheduler {
  import opened Midi
  import Scales
  import opened SessionControl
  import opened Patterns
  import BeatClock

  /** A started timer: the note it will release and when. */
  datatype PendingOff = PendingOff(key: Key, deadline: real)

  /** The output trace sent so far and the timers not yet fired. */
  datatype Timers = Timers(trace: seq<Message>, pending: seq<PendingOff>)

  function PendingKeys(pending: seq<PendingOff>): multiset<Key>
  {
    if pending == [] then multiset{} else multiset{pending[0].key} + PendingKeys(pending[1..])
  }

  /** Every note-on is either released already or has exactly one running timer,
      and every note-off sent has velocity 0. */
  predicate Inv(st: Timers) {
    OnKeys(st.trace) == OffKeys(st.trace) + PendingKeys(st.pending) && OffsSilent(st.trace)
  }

  const Idle: Timers := Timers([], [])

  lemma {:induction false} PendingKeysAppend(a: seq<PendingOff>, b: seq<PendingOff>)
    ensures PendingKeys(a + b) == PendingKeys(a) + PendingKeys(b)
  {
    if a != [] {
      assert (a + b)[1..] == a[1..] + b;
      PendingKeysAppend(a[1..], b);
    } else {
      assert a + b == b;
    }
  }

  /** Removing entry i takes exactly its key out of the pending multiset. */
  lemma {:induction false} PendingKeysRemove(p: seq<PendingOff>, i: nat)
    requires i < |p|
    ensures PendingKeys(p[..i] + p[i + 1..]) + multiset{p[i].key} == PendingKeys(p)
  {
    var a, x, b := p[..i], p[i], p[i + 1..];
    assert p == (a + [x]) + b;
    PendingKeysAppend(a + [x], b);
    PendingKeysAppend(a, [x]);
    PendingKeysSingle(x);
    PendingKeysAppend(a, b);
    KeysSwap(PendingKeys(a), multiset{x.key}, PendingKeys(b));
  }

  lemma KeysSwap(a: multiset<Key>, x: multiset<Key>, b: multiset<Key>)
    ensures a + x + b == (a + b) + x
  {
  }

  lemma PendingKeysSingle(x: PendingOff)
    ensures PendingKeys([x]) == multiset{x.key}
  {
    assert [x][1..] == [];
  }

  /** Send the trigger's note-on now and start its timer, due `duration` later. */
  function Schedule(st: Timers, t: Trigger, now: real): (r: Timers)
    ensures r.trace == st.trace + [NoteOn(t.channel, t.note, t.velocity)]
    ensures OnKeys(r.trace) == OnKeys(st.trace) + multiset{Key(t.channel, t.note)}
    ensures OffKeys(r.trace) == OffKeys(st.trace)
    ensures PendingKeys(r.pending) == PendingKeys(st.pending) + multiset{Key(t.channel, t.note)}
    ensures r.pending == st.pending + [PendingOff(Key(t.channel, t.note), now + t.duration)]
    ensures Inv(st) ==> Inv(r)
  {
    var on := NoteOn(t.channel, t.note, t.velocity);
    var timer := PendingOff(Key(t.channel, t.note), now + t.duration);
    SendOne(st.trace, on);
    PendingKeysAppend(st.pending, [timer]);
    PendingKeysSingle(timer);
    Timers(st.trace + [on], st.pending + [timer])
  }

  /** Timer i fires at time `now`, no earlier than its deadline: its note-off
      (velocity 0) is sent and the timer is gone. */
  function Fire(st: Timers, i: nat, now: real): (r: Timers)
    requires i < |st.pending| && st.pending[i].deadline <= now
    ensures |r.pending| == |st.pending| - 1
    ensures OnKeys(r.trace) == OnKeys(st.trace)
    ensures OffKeys(r.trace) == OffKeys(st.trace) + multiset{st.pending[i].key}
    ensures PendingKeys(r.pending) + multiset{st.pending[i].key} == PendingKeys(st.pending)
    ensures Inv(st) ==> Inv(r)
  {
    var p := st.pending[i];
    var off := NoteOff(p.key.channel, p.key.note, 0);
    var rest := st.pending[..i] + st.pending[i + 1..];
    PendingKeysRemove(st.pending, i);
    SendOne(st.trace, off);
    Timers(st.trace + [off], rest)
  }

  /** Index of a timer with the earliest deadline: the one that fires next. */
  function Earliest(pending: seq<PendingOff>): (k: nat)
    requires |pending| > 0
    ensures k < |pending|
    ensures forall j :: 0 <= j < |pending| ==> pending[k].deadline <= pending[j].deadline
  {
    if |pending| == 1 then 0
    else
      var k := Earliest(pending[1..]) + 1;
      if pending[0].deadline <= pending[k].deadline then 0 else k
  }

  /** Let every remaining timer run out, in deadline order. */
  function FireAll(st: Timers): (r: Timers)
    ensures r.pending == []
    ensures OnKeys(r.trace) == OnKeys(st.trace)
    ensures OffKeys(r.trace) == OffKeys(st.trace) + PendingKeys(st.pending)
    ensures Inv(st) ==> Inv(r) && Balanced(r.trace)
    decreases |st.pending|
  {
    if st.pending == [] then st
    else
      var k := Earliest(st.pending);
      FireAll(Fire(st, k, st.pending[k].deadline))
  }

  /** The keys a sequence of triggers sounds, with multiplicity. */
  function TriggerKeys(ts: seq<Trigger>): multiset<Key>
  {
    if ts == [] then multiset{} else multiset{Key(ts[0].channel, ts[0].note)} + TriggerKeys(ts[1..])
  }

  /** The timers a sequence of triggers started at time `now` starts, in order. */
  function OffTimers(ts: seq<Trigger>, now: real): (r: seq<PendingOff>)
    ensures |r| == |ts|
  {
    if ts == [] then []
    else [PendingOff(Key(ts[0].channel, ts[0].note), now + ts[0].duration)] + OffTimers(ts[1..], now)
  }

  /** The note-ons of a sequence of triggers, in order. */
  function OnMessages(ts: seq<Trigger>): (ms: seq<Message>)
    ensures |ms| == |ts|
    ensures forall i :: 0 <= i < |ts| ==> ms[i] == NoteOn(ts[i].channel, ts[i].note, ts[i].velocity)
  {
    seq(|ts|, (i: int) requires 0 <= i < |ts| => NoteOn(ts[i].channel, ts[i].note, ts[i].velocity))
  }

  /** Schedule a beat's triggers one after another, all at time `now`. */
  function ScheduleAll(st: Timers, ts: seq<Trigger>, now: real): (r: Timers)
    ensures r.trace == st.trace + OnMessages(ts)
    ensures |r.pending| == |st.pending| + |ts|
    ensures r.pending == st.pending + OffTimers(ts, now)
    ensures OnKeys(r.trace) == OnKeys(st.trace) + TriggerKeys(ts)
    ensures PendingKeys(r.pending) == PendingKeys(st.pending) + TriggerKeys(ts)
    ensures OffKeys(r.trace) == OffKeys(st.trace)
    ensures Inv(st) ==> Inv(r)
    decreases |ts|
  {
    if ts == [] then st
    else
      var st1 := Schedule(st, ts[0], now);
      var r := ScheduleAll(st1, ts[1..], now);
      var key := Key(ts[0].channel, ts[0].note);
      OffTimersCons(st.pending, ts, now);
      OnMessagesCons(st.trace, ts);
      ScheduleStepKeys(OnKeys(st.trace), OnKeys(st1.trace), OnKeys(r.trace), ts, key);
      ScheduleStepKeys(PendingKeys(st.pending), PendingKeys(st1.pending), PendingKeys(r.pending), ts, key);
      r
  }

  lemma OnMessagesCons(trace: seq<Message>, ts: seq<Trigger>)
    requires ts != []
    ensures (trace + [NoteOn(ts[0].channel, ts[0].note, ts[0].velocity)]) + OnMessages(ts[1..])
            == trace + OnMessages(ts)
  {
    assert OnMessages(ts) == [NoteOn(ts[0].channel, ts[0].note, ts[0].velocity)] + OnMessages(ts[1..]);
  }

  lemma OffTimersCons(p: seq<PendingOff>, ts: seq<Trigger>, now: real)
    requires ts != []
    ensures (p + [PendingOff(Key(ts[0].channel, ts[0].note), now + ts[0].duration)]) + OffTimers(ts[1..], now)
            == p + OffTimers(ts, now)
  {
  }

  /** One scheduled trigger followed by the rest adds the keys of all of them. */
  lemma ScheduleStepKeys(m0: multiset<Key>, m1: multiset<Key>, m2: multiset<Key>, ts: seq<Trigger>, key: Key)
    requires ts != [] && key == Key(ts[0].channel, ts[0].note)
    requires m1 == m0 + multiset{key} && m2 == m1 + TriggerKeys(ts[1..])
    ensures m2 == m0 + TriggerKeys(ts)
  {
  }

  /** What a run of beats needs to pick its notes: one snapshot, draw and clock
      reading per position, every snapshot with a known scale and every draw
      within that scale. */
  predicate TriggerInputs(ps: seq<BeatClock.Pos>, ss: seq<Session>, ds: seq<JamDraws>, times: seq<real>) {
    && |ss| == |ps| && |ds| == |ps| && |times| == |ps|
    && (forall i :: 0 <= i < |ps| ==>
          && Scales.IsScaleType(ss[i].scaleType)
          && DrawsFit(ds[i], |Scales.CurrentScale(ss[i].keyRoot, ss[i].scaleType)|))
  }

  /** jam_loop's beats: beat i is played at position ps[i] with the parameter
      snapshot ss[i], the draws ds[i] and the clock reading times[i]; every
      snapshot is a valid session. */
  predicate BeatInputs(ps: seq<BeatClock.Pos>, ss: seq<Session>, ds: seq<JamDraws>, times: seq<real>) {
    && TriggerInputs(ps, ss, ds, times)
    && (forall i :: 0 <= i < |ps| ==> Valid(ss[i]))
  }

  lemma TriggerInputsTail(ps: seq<BeatClock.Pos>, ss: seq<Session>, ds: seq<JamDraws>, times: seq<real>)
    requires TriggerInputs(ps, ss, ds, times) && ps != []
    ensures TriggerInputs(ps[1..], ss[1..], ds[1..], times[1..])
  {
    forall i | 0 <= i < |ps| - 1
      ensures Scales.IsScaleType(ss[1..][i].scaleType)
      ensures DrawsFit(ds[1..][i], |Scales.CurrentScale(ss[1..][i].keyRoot, ss[1..][i].scaleType)|)
    {
      assert ss[1..][i] == ss[i + 1] && ds[1..][i] == ds[i + 1];
    }
  }

  /** The beats after the first are again a run of beats. */
  lemma BeatInputsTail(ps: seq<BeatClock.Pos>, ss: seq<Session>, ds: seq<JamDraws>, times: seq<real>)
    requires BeatInputs(ps, ss, ds, times) && ps != []
    ensures BeatInputs(ps[1..], ss[1..], ds[1..], times[1..])
  {
    TriggerInputsTail(ps, ss, ds, times);
    forall i | 0 <= i < |ps| - 1
      ensures Valid(ss[1..][i])
    {
      assert ss[1..][i] == ss[i + 1];
    }
  }

  /** The keys the beats' triggers sound, with multiplicity. */
  function BeatKeys(ps: seq<BeatClock.Pos>, ss: seq<Session>, ds: seq<JamDraws>, times: seq<real>): multiset<Key>
    requires TriggerInputs(ps, ss, ds, times)
    decreases |ps|
  {
    if ps == [] then multiset{}
    else
      TriggerInputsTail(ps, ss, ds, times);
      TriggerKeys(BeatTriggers(ss[0], ps[0].bar, ps[0].beat, ds[0])) + BeatKeys(ps[1..], ss[1..], ds[1..], times[1..])
  }

  /** The number of beats played with the drums on and the port open. */
  function DrumBeats(ss: seq<Session>): nat
    decreases |ss|
  {
    if ss == [] then 0
    else (if ss[0].portOpen && ss[0].drumsEnabled then 1 else 0) + DrumBeats(ss[1..])
  }

  /** The timers the beats start, beat by beat, each beat's at its own clock reading;
      every beat with the drums on and the port open starts at least its hi-hat's. */
  function BeatTimers(ps: seq<BeatClock.Pos>, ss: seq<Session>, ds: seq<JamDraws>, times: seq<real>): (r: seq<PendingOff>)
    requires TriggerInputs(ps, ss, ds, times)
    ensures |r| >= DrumBeats(ss)
    decreases |ps|
  {
    if ps == [] then []
    else
      TriggerInputsTail(ps, ss, ds, times);
      OffTimers(BeatTriggers(ss[0], ps[0].bar, ps[0].beat, ds[0]), times[0]) + BeatTimers(ps[1..], ss[1..], ds[1..], times[1..])
  }

  /** The beats themselves send only note-ons and start timers: exactly the keys of
      the beats' triggers are switched on and owed, no note-off is sent, and the
      running timers stay in place with the beats' new timers after them. */
  function RunBeats(st: Timers, ps: seq<BeatClock.Pos>, ss: seq<Session>, ds: seq<JamDraws>, times: seq<real>): (r: Timers)
    requires BeatInputs(ps, ss, ds, times)
    ensures OnKeys(r.trace) == OnKeys(st.trace) + BeatKeys(ps, ss, ds, times)
    ensures PendingKeys(r.pending) == PendingKeys(st.pending) + BeatKeys(ps, ss, ds, times)
    ensures OffKeys(r.trace) == OffKeys(st.trace)
    ensures r.pending == st.pending + BeatTimers(ps, ss, ds, times)
    decreases |ps|
  {
    if ps == [] then st
    else
      var ts := BeatTriggers(ss[0], ps[0].bar, ps[0].beat, ds[0]);
      var st1 := ScheduleAll(st, ts, times[0]);
      BeatInputsTail(ps, ss, ds, times);
      var r := RunBeats(st1, ps[1..], ss[1..], ds[1..], times[1..]);
      var rest := BeatKeys(ps[1..], ss[1..], ds[1..], times[1..]);
      assert BeatKeys(ps, ss, ds, times) == TriggerKeys(ts) + rest;
      KeysStep(OnKeys(st.trace), OnKeys(st1.trace), OnKeys(r.trace), TriggerKeys(ts), rest);
      KeysStep(PendingKeys(st.pending), PendingKeys(st1.pending), PendingKeys(r.pending), TriggerKeys(ts), rest);
      var later := BeatTimers(ps[1..], ss[1..], ds[1..], times[1..]);
      assert BeatTimers(ps, ss, ds, times) == OffTimers(ts, times[0]) + later;
      TimersStep(st.pending, st1.pending, r.pending, OffTimers(ts, times[0]), later);
      r
  }

  lemma TimersStep(p0: seq<PendingOff>, p1: seq<PendingOff>, p2: seq<PendingOff>, a: seq<PendingOff>, b: seq<PendingOff>)
    requires p1 == p0 + a && p2 == p1 + b
    ensures p2 == p0 + (a + b)
  {
  }

  lemma KeysStep(m0: multiset<Key>, m1: multiset<Key>, m2: multiset<Key>, a: multiset<Key>, b: multiset<Key>)
    requires m1 == m0 + a && m2 == m1 + b
    ensures m2 == m0 + (a + b)
  {
  }

  /** A beat played with the drums on and the port open starts at least one timer
      (its hi-hat), and it is still running when the beats end. */
  lemma {:induction false} DrumBeatStartsTimer(st: Timers, ps: seq<BeatClock.Pos>, ss: seq<Session>, ds: seq<JamDraws>, times: seq<real>, i: nat)
    requires BeatInputs(ps, ss, ds, times)
    requires i < |ps| && ss[i].portOpen && ss[i].drumsEnabled
    ensures |RunBeats(st, ps, ss, ds, times).pending| > |st.pending|
  {
    DrumBeatTimers(ps, ss, ds, times, i);
  }

  lemma DrumBeatTimers(ps: seq<BeatClock.Pos>, ss: seq<Session>, ds: seq<JamDraws>, times: seq<real>, i: nat)
    requires TriggerInputs(ps, ss, ds, times)
    requires i < |ps| && ss[i].portOpen && ss[i].drumsEnabled
    ensures |BeatTimers(ps, ss, ds, times)| > 0
  {
    DrumBeatsPositive(ss, i);
  }

  /** A run with one beat played with the drums on and the port open counts it. */
  lemma {:induction false} DrumBeatsPositive(ss: seq<Session>, i: nat)
    requires i < |ss| && ss[i].portOpen && ss[i].drumsEnabled
    ensures DrumBeats(ss) > 0
    decreases |ss|
  {
    if i > 0 {
      assert ss[1..][i - 1] == ss[i];
      DrumBeatsPositive(ss[1..], i - 1);
    }
  }

  /** Playing beats, whatever the parameters did in between, keeps every note-on
      backed by a note-off already sent or a timer still running. */
  lemma {:induction false} RunBeatsKeepsInv(st: Timers, ps: seq<BeatClock.Pos>, ss: seq<Session>, ds: seq<JamDraws>, times: seq<real>)
    requires BeatInputs(ps, ss, ds, times)
    requires Inv(st)
    ensures Inv(RunBeats(st, ps, ss, ds, times))
    decreases |ps|
  {
    if ps != [] {
      var ts := BeatTriggers(ss[0], ps[0].bar, ps[0].beat, ds[0]);
      BeatInputsTail(ps, ss, ds, times);
      RunBeatsKeepsInv(ScheduleAll(st, ts, times[0]), ps[1..], ss[1..], ds[1..], times[1..]);
    }
  }

  /** The session's note-pairing guarantee: play any number of beats of the loop
      (stopping wherever the play flag is seen cleared), then let the timers run
      out before the program exits; every note-on has been matched by exactly one
      note-off on the same channel and pitch, and every note-off has velocity 0.
      The program as written does not wait for the timers: see QuitLeavesNoteOn. */
  lemma JamNotesPaired(lc0: nat, n: nat, ss: seq<Session>, ds: seq<JamDraws>, times: seq<real>)
    requires BeatInputs(BeatClock.Positions(lc0, n), ss, ds, times)
    ensures var r := FireAll(RunBeats(Idle, BeatClock.Positions(lc0, n), ss, ds, times));
            Balanced(r.trace) && OffsSilent(r.trace) && r.pending == []
  {
    assert Inv(Idle);
    RunBeatsKeepsInv(Idle, BeatClock.Positions(lc0, n), ss, ds, times);
  }

  /** What quitting does to the pairing as the program is written: [0] or Ctrl+C at
      the menu only clears the play flag and leaves main, and the timers run in
      daemon threads (the jam thread is a daemon and its timers inherit that), so the
      interpreter exits without waiting for them. Whatever timer is still running at
      that moment never sends its note-off, and the trace ends unbalanced. */
  lemma QuitLeavesNoteOn(st: Timers)
    requires Inv(st) && st.pending != []
    ensures !Balanced(st.trace)
    ensures OffKeys(st.trace)[st.pending[0].key] < OnKeys(st.trace)[st.pending[0].key]
  {
    var k := st.pending[0].key;
    assert PendingKeys(st.pending)[k] > 0;
  }

  /** For instance, quitting right after any beat played with the drums on leaves a
      note sounding. The instance assumes that no timer has fired yet: `RunBeats`
      only schedules, so the quit comes before the earliest note-off is due (a
      hi-hat's 0.05 s after its beat). */
  lemma QuitAfterBeatLeavesNoteOn(lc0: nat, n: nat, ss: seq<Session>, ds: seq<JamDraws>, times: seq<real>, i: nat)
    requires BeatInputs(BeatClock.Positions(lc0, n), ss, ds, times)
    requires i < n && ss[i].portOpen && ss[i].drumsEnabled
    ensures !Balanced(RunBeats(Idle, BeatClock.Positions(lc0, n), ss, ds, times).trace)
  {
    assert Inv(Idle);
    RunBeatsKeepsInv(Idle, BeatClock.Positions(lc0, n), ss, ds, times);
    DrumBeatStartsTimer(Idle, BeatClock.Positions(lc0, n), ss, ds, times, i);
    QuitLeavesNoteOn(RunBeats(Idle, BeatClock.Positions(lc0, n), ss, ds, times));
  }

  /** Timers may fire between or during beats in any order; each firing keeps the
      pairing, so beats and firings may interleave freely. */
  lemma FireAnyKeepsInv(st: Timers, i: nat, now: real)
    requires Inv(st) && i < |st.pending| && st.pending[i].deadline <= now
    ensures Inv(Fire(st, i, now))
    ensures forall k :: 0 <= k < |st.trace| ==> Fire(st, i, now).trace[k] == st.trace[k]
  {
  }

  /** At any moment, no key has been switched off more often than on. */
  lemma NoStrayNoteOff(st: Timers, k: Key)
    requires Inv(st)
    ensures OffKeys(st.trace)[k] <= OnKeys(st.trace)[k]
  {
  }
}

=== FILE: patterns.dfy ===
/** The jam session's per-beat decisions (jam_session.py drum_pattern_basic,
    drum_pattern_breaks, bass_pattern_basic, bass_pattern_acid,
    melody_pattern_sparse, the body of jam_loop) and the play_* functions that
    gate a voice and compute its velocity. Every random draw is a parameter. */
module Patterns {
  import opened Midi
  import Scales
  import opened SessionControl

  /** What a pattern asks to play; the play_* functions turn it into a trigger. */
  datatype Request =
    | KickHit
    | SnareHit
    | HiHatHit
    | BassHit(note: int, duration: real)
    | MelodyHit(note: int, duration: real)

  /** A note to sound now and release `duration` seconds later. */
  datatype Trigger = Trigger(channel: int, note: int, velocity: int, duration: real)

  /** The random draws one beat may consume. `drum`, the gates and `bassShift` come
      from random() and lie in [0, 1); the degrees come from randint / choice over
      the current scale. */
  datatype JamDraws = JamDraws(
    drum: real,
    bassGate: real,
    bassDegree: int,
    bassShift: real,
    melodyGate: real,
    melodyDegree: int)

  predicate Unit01(x: real) {
    0.0 <= x < 1.0
  }

  /** The draws are what the random module can return for a scale of `scaleLength` notes. */
  predicate DrawsFit(d: JamDraws, scaleLength: int) {
    && Unit01(d.drum) && Unit01(d.bassGate) && Unit01(d.bassShift) && Unit01(d.melodyGate)
    && 0 <= d.bassDegree < scaleLength
    && 0 <= d.melodyDegree < scaleLength
  }

  /** Python's int() on a float: truncation toward zero. */
  function Trunc(x: real): (n: int)
    ensures 0.0 <= x ==> n as real <= x < n as real + 1.0
    ensures x < 0.0 ==> x <= n as real < x + 1.0
  {
    if x >= 0.0 then x.Floor else -((-x).Floor)
  }

  /** int(base + span * intensity): for intensities in [0, 1] it lies in base..base+span. */
  function Velocity(base: int, span: int, intensity: real): (v: int)
    requires 0 <= span
    ensures 0.0 <= intensity <= 1.0 ==> base <= v <= base + span
  {
    var y := span as real * intensity;
    assert 0.0 <= intensity <= 1.0 ==> base <= Trunc(base as real + y) <= base + span by {
      if 0.0 <= intensity <= 1.0 {
        ScaledWithin(span as real, intensity);
        TruncOffset(base, span, y);
      }
    }
    Trunc(base as real + y)
  }

  lemma ScaledWithin(m: real, intensity: real)
    requires 0.0 <= m && 0.0 <= intensity <= 1.0
    ensures 0.0 <= m * intensity <= m
  {
    MulNonneg(m, intensity);
    MulNonneg(m, 1.0 - intensity);
  }

  lemma MulNonneg(a: real, b: real)
    requires 0.0 <= a && 0.0 <= b
    ensures 0.0 <= a * b
  {
  }

  /** Truncation stays between any two integers that bound its argument. */
  lemma TruncBetween(x: real, lo: int, hi: int)
    requires lo as real <= x <= hi as real
    ensures lo <= Trunc(x) <= hi
  {
    if x >= 0.0 {
      assert lo <= x.Floor;
    } else {
      assert (-x).Floor <= -lo;
      assert -hi <= (-x).Floor;
    }
  }

  /** An offset between 0 and span keeps the truncation in base..base+span. */
  lemma TruncOffset(base: int, span: int, y: real)
    requires 0.0 <= y <= span as real
    ensures base <= Trunc(base as real + y) <= base + span
  {
    var x := base as real + y;
    assert base as real <= x <= (base + span) as real;
    TruncBetween(x, base, base + span);
  }

  /** The formula hits its window's ends exactly: base at intensity 0, base + span at 1. */
  lemma VelocityEnds(base: int, span: int)
    requires 0 <= span
    ensures Velocity(base, span, 0.0) == base
    ensures Velocity(base, span, 1.0) == base + span
  {
  }

  /** Turning a voice's intensity up never makes it quieter. */
  lemma VelocityMonotone(base: int, span: int, i1: real, i2: real)
    requires 0 <= span && 0 <= base
    requires 0.0 <= i1 <= i2
    ensures Velocity(base, span, i1) <= Velocity(base, span, i2)
  {
    MulNonneg(span as real, i2 - i1);
    assert span as real * (i2 - i1) == span as real * i2 - span as real * i1;
    FloorMonotone(base as real + span as real * i1, base as real + span as real * i2);
  }

  lemma FloorMonotone(x: real, y: real)
    requires 0.0 <= x <= y
    ensures x.Floor <= y.Floor
  {
    assert x.Floor as real <= x;
    assert y < y.Floor as real + 1.0;
  }

  function ChannelOf(q: Request): int {
    match q
    case KickHit => DrumChannel
    case SnareHit => DrumChannel
    case HiHatHit => DrumChannel
    case BassHit(_, _) => BassChannel
    case MelodyHit(_, _) => MelodyChannel
  }

  /** Whether the voice owning `channel` is switched on. */
  predicate ChannelEnabled(s: Session, channel: int) {
    || (channel == DrumChannel && s.drumsEnabled)
    || (channel == BassChannel && s.bassEnabled)
    || (channel == MelodyChannel && s.melodyEnabled)
  }

  /** The velocity window each voice stays in when its intensity lies in [0, 1]. */
  function VelocityLow(channel: int, note: int): int {
    if channel == DrumChannel then (if note == KickNote then 100 else if note == SnareNote then 90 else 60)
    else if channel == BassChannel then 80
    else 70
  }

  function VelocityHigh(channel: int, note: int): int {
    if channel == DrumChannel then (if note == KickNote then 127 else if note == SnareNote then 120 else 90)
    else if channel == BassChannel then 110
    else 100
  }

  /** The durations the play_* functions give their note-off timers. */
  predicate KnownDuration(d: real) {
    d == 0.1 || d == 0.05 || d == 0.7 || d == 0.3 || d == 1.5
  }

  /** What a pattern may ask for: a pitch MIDI can carry and one of the known durations. */
  predicate RequestOk(q: Request) {
    match q
    case BassHit(n, d) => 0 <= n < 128 && KnownDuration(d)
    case MelodyHit(n, d) => 0 <= n < 128 && KnownDuration(d)
    case _ => true
  }

  /** A trigger that yields valid MIDI messages: a voice's channel, an in-range pitch
      (a fixed drum note on the drum channel), the voice's velocity window and a
      positive duration. */
  predicate TriggerOk(t: Trigger) {
    && t.channel in {DrumChannel, BassChannel, MelodyChannel}
    && (t.channel == DrumChannel ==> t.note in {KickNote, SnareNote, HiHatNote})
    && 0 <= t.note < 128
    && VelocityLow(t.channel, t.note) <= t.velocity <= VelocityHigh(t.channel, t.note)
    && ValidMessage(NoteOn(t.channel, t.note, t.velocity))
    && KnownDuration(t.duration)
  }

  predicate IntensitiesInUnit(s: Session) {
    InUnit(s.drumIntensity) && InUnit(s.bassIntensity) && InUnit(s.melodyIntensity)
  }

  /** play_kick, play_snare, play_hihat, play_bass_note, play_melody_note: nothing
      unless the voice is enabled and a port is open; otherwise a trigger on the
      voice's channel with the voice's velocity formula. */
  function Play(s: Session, q: Request): (r: Option<Trigger>)
    ensures r.Some? <==> s.portOpen && ChannelEnabled(s, ChannelOf(q))
    ensures r.Some? ==> r.value.channel == ChannelOf(q)
    ensures r.Some? && q.KickHit? ==>
      r.value == Trigger(DrumChannel, KickNote, Velocity(100, 27, s.drumIntensity), 0.1)
    ensures r.Some? && q.SnareHit? ==>
      r.value == Trigger(DrumChannel, SnareNote, Velocity(90, 30, s.drumIntensity), 0.1)
    ensures r.Some? && q.HiHatHit? ==>
      r.value == Trigger(DrumChannel, HiHatNote, Velocity(60, 30, s.drumIntensity), 0.05)
    ensures r.Some? && q.BassHit? ==>
      r.value == Trigger(BassChannel, q.note, Velocity(80, 30, s.bassIntensity), q.duration)
    ensures r.Some? && q.MelodyHit? ==>
      r.value == Trigger(MelodyChannel, q.note, Velocity(70, 30, s.melodyIntensity), q.duration)
    ensures r.Some? && IntensitiesInUnit(s) && RequestOk(q) ==> TriggerOk(r.value)
  {
    if !s.portOpen || !ChannelEnabled(s, ChannelOf(q)) then None
    else
      match q
      case KickHit => Some(Trigger(DrumChannel, KickNote, Velocity(100, 27, s.drumIntensity), 0.1))
      case SnareHit => Some(Trigger(DrumChannel, SnareNote, Velocity(90, 30, s.drumIntensity), 0.1))
      case HiHatHit => Some(Trigger(DrumChannel, HiHatNote, Velocity(60, 30, s.drumIntensity), 0.05))
      case BassHit(n, d) => Some(Trigger(BassChannel, n, Velocity(80, 30, s.bassIntensity), d))
      case MelodyHit(n, d) => Some(Trigger(MelodyChannel, n, Velocity(70, 30, s.melodyIntensity), d))
  }

  /** Plays each request in order, dropping those whose voice is gated off. */
  function PlayAll(s: Session, qs: seq<Request>): (r: seq<Trigger>)
    ensures |r| <= |qs|
    ensures forall t :: t in r ==> s.portOpen && ChannelEnabled(s, t.channel)
    ensures s.portOpen && (forall q :: q in qs ==> ChannelEnabled(s, ChannelOf(q))) ==> |r| == |qs|
    ensures s.portOpen && (forall q :: q in qs ==> ChannelEnabled(s, ChannelOf(q))) ==>
      forall i :: 0 <= i < |qs| ==> Play(s, qs[i]).Some? && r[i] == Play(s, qs[i]).value
    ensures IntensitiesInUnit(s) && (forall q :: q in qs ==> RequestOk(q)) ==>
      forall t :: t in r ==> TriggerOk(t)
    ensures forall q :: q in qs && Play(s, q).Some? ==> Play(s, q).value in r
    ensures !s.portOpen ==> r == []
  {
    if qs == [] then []
    else
      var rest := PlayAll(s, qs[1..]);
      assert forall q :: q in qs[1..] ==> q in qs;
      match Play(s, qs[0])
      case Some(t) => [t] + rest
      case None => rest
  }

  /** Every note of a beat is what one of its requests plays. */
  lemma {:induction false} PlayAllFrom(s: Session, qs: seq<Request>)
    ensures forall t :: t in PlayAll(s, qs) ==> exists q :: q in qs && Play(s, q) == Some(t)
  {
    if qs != [] {
      PlayAllFrom(s, qs[1..]);
      forall t | t in PlayAll(s, qs)
        ensures exists q :: q in qs && Play(s, q) == Some(t)
      {
        if t in PlayAll(s, qs[1..]) {
          var q :| q in qs[1..] && Play(s, q) == Some(t);
          assert q in qs;
        } else {
          assert Play(s, qs[0]) == Some(t);
        }
      }
    }
  }

  /** drum_pattern_basic: a kick on every beat and a snare on the odd beats. */
  function DrumBasic(beat: nat): (r: seq<Request>)
    ensures KickHit in r
    ensures SnareHit in r <==> beat % 2 == 1
    ensures forall q :: q in r ==> q == KickHit || q == SnareHit
    ensures |r| == if beat % 2 == 1 then 2 else 1
  {
    [KickHit] + (if beat % 2 == 1 then [SnareHit] else [])
  }

  /** drum_pattern_breaks: kick on beat 0, snare on beat 1, kick on beat 2 when the
      draw exceeds 0.3, snare on beat 3 plus a kick when the draw exceeds 0.7. */
  function DrumBreaks(beat: nat, draw: real): (r: seq<Request>)
    ensures KickHit in r <==> beat == 0 || (beat == 2 && draw > 0.3) || (beat == 3 && draw > 0.7)
    ensures SnareHit in r <==> beat == 1 || beat == 3
    ensures forall q :: q in r ==> q == KickHit || q == SnareHit
    ensures |r| == (if KickHit in r then 1 else 0) + (if SnareHit in r then 1 else 0)
  {
    if beat == 0 then [KickHit]
    else if beat == 1 then [SnareHit]
    else if beat == 2 then (if draw > 0.3 then [KickHit] else [])
    else if beat == 3 then [SnareHit] + (if draw > 0.7 then [KickHit] else [])
    else []
  }

  /** bass_pattern_basic: on beats 0 and 2, when the draw is below the bass
      intensity, the scale degree picked by the bar, two octaves down, for 0.7 s. */
  function BassBasic(s: Session, beat: nat, bar: nat, gate: real): (r: Option<Request>)
    requires Scales.IsScaleType(s.scaleType)
    ensures r.Some? <==> (beat == 0 || beat == 2) && gate < s.bassIntensity
    ensures r.Some? ==> r.value.BassHit? && r.value.duration == 0.7
    ensures r.Some? ==> r.value.note + 24 in Scales.CurrentScale(s.keyRoot, s.scaleType)
    ensures r.Some? ==> var sc := Scales.CurrentScale(s.keyRoot, s.scaleType);
      r.value.note + 24 == sc[bar % |sc|]
  {
    if (beat == 0 || beat == 2) && gate < s.bassIntensity then
      var scale := Scales.CurrentScale(s.keyRoot, s.scaleType);
      Some(BassHit(scale[bar % |scale|] - 24, 0.7))
    else None
  }

  /** bass_pattern_acid: its beat test `beat % 1 == 0` always holds, so any beat
      fires when the draw is below the bass intensity; a drawn scale degree two
      octaves down, three semitones up when the shift draw exceeds 0.7, for 0.3 s. */
  function BassAcid(s: Session, beat: nat, gate: real, degree: int, shift: real): (r: Option<Request>)
    requires Scales.IsScaleType(s.scaleType)
    requires 0 <= degree < |Scales.CurrentScale(s.keyRoot, s.scaleType)|
    ensures r.Some? <==> gate < s.bassIntensity
    ensures r.Some? ==> r.value.BassHit? && r.value.duration == 0.3
    ensures r.Some? ==> r.value.note + 24 - (if shift > 0.7 then 3 else 0)
                        == Scales.CurrentScale(s.keyRoot, s.scaleType)[degree]
  {
    if beat % 1 == 0 && gate < s.bassIntensity then
      var scale := Scales.CurrentScale(s.keyRoot, s.scaleType);
      var note := scale[degree] - 24;
      Some(BassHit(if shift > 0.7 then note + 3 else note, 0.3))
    else None
  }

  /** melody_pattern_sparse: only on beat 0 of every fourth bar, when the draw is
      below the melody intensity, a drawn scale note as it is, for 1.5 s. */
  function MelodySparse(s: Session, beat: nat, bar: nat, gate: real, degree: int): (r: Option<Request>)
    requires Scales.IsScaleType(s.scaleType)
    requires 0 <= degree < |Scales.CurrentScale(s.keyRoot, s.scaleType)|
    ensures r.Some? <==> beat == 0 && bar % 4 == 0 && gate < s.melodyIntensity
    ensures r.Some? ==> r.value.MelodyHit? && r.value.duration == 1.5
    ensures r.Some? ==> r.value.note in Scales.CurrentScale(s.keyRoot, s.scaleType)
  {
    if beat == 0 && bar % 4 == 0 && gate < s.melodyIntensity then
      Some(MelodyHit(Scales.CurrentScale(s.keyRoot, s.scaleType)[degree], 1.5))
    else None
  }

  function OptionToSeq(o: Option<Request>): seq<Request> {
    match o
    case Some(q) => [q]
    case None => []
  }

  /** One beat of jam_loop: drums by the selected drum pattern, bass by the
      selected bass pattern, the sparse melody, then a hi-hat. */
  function BeatRequests(s: Session, bar: nat, beat: nat, d: JamDraws): (r: seq<Request>)
    requires Scales.IsScaleType(s.scaleType)
    requires DrawsFit(d, |Scales.CurrentScale(s.keyRoot, s.scaleType)|)
    ensures |r| > 0 && r[|r| - 1] == HiHatHit
  {
    var drums := if s.drumPattern == 0 then DrumBasic(beat) else DrumBreaks(beat, d.drum);
    var bass := if s.bassPattern == 0 then BassBasic(s, beat, bar, d.bassGate)
                else BassAcid(s, beat, d.bassGate, d.bassDegree, d.bassShift);
    var melody := MelodySparse(s, beat, bar, d.melodyGate, d.melodyDegree);
    drums + OptionToSeq(bass) + OptionToSeq(melody) + [HiHatHit]
  }

  /** The triggers one beat of jam_loop hands to the note scheduler: every request
      whose voice is on plays its note, at most one per request, only from voices
      that are on, nothing with the port closed, and at least the hi-hat when the
      drums are on. */
  function BeatTriggers(s: Session, bar: nat, beat: nat, d: JamDraws): (r: seq<Trigger>)
    requires Scales.IsScaleType(s.scaleType)
    requires DrawsFit(d, |Scales.CurrentScale(s.keyRoot, s.scaleType)|)
    ensures |r| <= |BeatRequests(s, bar, beat, d)|
    ensures forall q :: q in BeatRequests(s, bar, beat, d) && Play(s, q).Some? ==> Play(s, q).value in r
    ensures forall t :: t in r ==> s.portOpen && ChannelEnabled(s, t.channel)
    ensures !s.portOpen ==> r == []
    ensures s.portOpen && s.drumsEnabled ==> |r| > 0
  {
    var qs := BeatRequests(s, bar, beat, d);
    assert HiHatHit in qs by {
      assert qs[|qs| - 1] == HiHatHit;
    }
    PlayAll(s, qs)
  }

  /** Every note of a beat is what one of the beat's requests plays. */
  lemma BeatTriggersFrom(s: Session, bar: nat, beat: nat, d: JamDraws)
    requires Scales.IsScaleType(s.scaleType)
    requires DrawsFit(d, |Scales.CurrentScale(s.keyRoot, s.scaleType)|)
    ensures forall t :: t in BeatTriggers(s, bar, beat, d) ==>
      exists q :: q in BeatRequests(s, bar, beat, d) && Play(s, q) == Some(t)
  {
    PlayAllFrom(s, BeatRequests(s, bar, beat, d));
  }

  /** For the twelve keys the bass stays within 36..61: a scale note two octaves
      down, at most three semitones higher. */
  lemma BassRange(s: Session, beat: nat, bar: nat, d: JamDraws)
    requires Valid(s)
    requires DrawsFit(d, |Scales.CurrentScale(s.keyRoot, s.scaleType)|)
    ensures var b := if s.bassPattern == 0 then BassBasic(s, beat, bar, d.bassGate)
                     else BassAcid(s, beat, d.bassGate, d.bassDegree, d.bassShift);
            b.Some? ==> 36 <= b.value.note <= 61 && RequestOk(b.value)
  {
    Scales.ScaleRange(s.keyRoot, s.scaleType);
  }

  /** For the twelve keys the melody stays within 60..82. */
  lemma MelodyRange(s: Session, beat: nat, bar: nat, d: JamDraws)
    requires Valid(s)
    requires DrawsFit(d, |Scales.CurrentScale(s.keyRoot, s.scaleType)|)
    ensures var m := MelodySparse(s, beat, bar, d.melodyGate, d.melodyDegree);
            m.Some? ==> 60 <= m.value.note <= 82 && RequestOk(m.value)
  {
    Scales.ScaleRange(s.keyRoot, s.scaleType);
  }

  /** In a valid session every trigger of a beat is well formed: valid channel,
      pitch and velocity window, and one of the known durations. */
  lemma BeatTriggersOk(s: Session, bar: nat, beat: nat, d: JamDraws)
    requires Valid(s)
    requires DrawsFit(d, |Scales.CurrentScale(s.keyRoot, s.scaleType)|)
    ensures forall t :: t in BeatTriggers(s, bar, beat, d) ==> TriggerOk(t)
  {
    BassRange(s, beat, bar, d);
    MelodyRange(s, beat, bar, d);
    var qs := BeatRequests(s, bar, beat, d);
    assert forall q :: q in qs ==> RequestOk(q);
  }

  /** A voice whose enabled flag is off gets no trigger, so no note-on and no
      note-off, whatever its pattern and draws. */
  lemma DisabledVoiceSilent(s: Session, bar: nat, beat: nat, d: JamDraws)
    requires Scales.IsScaleType(s.scaleType)
    requires DrawsFit(d, |Scales.CurrentScale(s.keyRoot, s.scaleType)|)
    ensures !s.drumsEnabled ==> forall t :: t in BeatTriggers(s, bar, beat, d) ==> t.channel != DrumChannel
    ensures !s.bassEnabled ==> forall t :: t in BeatTriggers(s, bar, beat, d) ==> t.channel != BassChannel
    ensures !s.melodyEnabled ==> forall t :: t in BeatTriggers(s, bar, beat, d) ==> t.channel != MelodyChannel
  {
  }

  /** The last trigger is a hi-hat at 60..90 with a 0.05 s timer. */
  predicate EndsInHiHat(ts: seq<Trigger>) {
    && |ts| > 0 && ts[|ts| - 1].channel == DrumChannel && ts[|ts| - 1].note == HiHatNote
    && 60 <= ts[|ts| - 1].velocity <= 90 && ts[|ts| - 1].duration == 0.05
  }

  /** With drums on and a port open, every beat ends with a hi-hat at 60..90. */
  lemma HiHatEveryBeat(s: Session, bar: nat, beat: nat, d: JamDraws)
    requires Scales.IsScaleType(s.scaleType) && InUnit(s.drumIntensity)
    requires s.portOpen && s.drumsEnabled
    requires DrawsFit(d, |Scales.CurrentScale(s.keyRoot, s.scaleType)|)
    ensures EndsInHiHat(BeatTriggers(s, bar, beat, d))
  {
    EndsWithHiHat(s, BeatRequests(s, bar, beat, d));
  }

  /** Requests ending in a hi-hat, with drums on, end in the hi-hat's trigger. */
  lemma EndsWithHiHat(s: Session, qs: seq<Request>)
    requires |qs| > 0 && qs[|qs| - 1] == HiHatHit && s.portOpen && s.drumsEnabled
    requires InUnit(s.drumIntensity)
    ensures EndsInHiHat(PlayAll(s, qs))
  {
    PlayAllLast(s, qs);
    var v := Velocity(60, 30, s.drumIntensity);
    assert 60 <= v <= 90;
    assert Play(s, HiHatHit).value == Trigger(DrumChannel, HiHatNote, v, 0.05);
  }

  lemma {:induction false} PlayAllLast(s: Session, qs: seq<Request>)
    requires |qs| > 0 && qs[|qs| - 1] == HiHatHit && s.portOpen && s.drumsEnabled
    ensures var ts := PlayAll(s, qs);
            |ts| > 0 && ts[|ts| - 1] == Play(s, HiHatHit).value
  {
    var rest := PlayAll(s, qs[1..]);
    if |qs| > 1 {
      PlayAllLast(s, qs[1..]);
      assert PlayAll(s, qs) == rest || PlayAll(s, qs) == [Play(s, qs[0]).value] + rest;
    } else {
      assert rest == [];
      assert PlayAll(s, qs) == [Play(s, HiHatHit).value];
    }
  }

  /** At intensity 0 the probability-gated voices never fire: every draw in [0, 1)
      fails a `draw < intensity` gate. */
  lemma SilentAtZeroIntensity(s: Session, beat: nat, bar: nat, d: JamDraws)
    requires Scales.IsScaleType(s.scaleType)
    requires DrawsFit(d, |Scales.CurrentScale(s.keyRoot, s.scaleType)|)
    ensures s.bassIntensity == 0.0 ==> BassBasic(s, beat, bar, d.bassGate).None?
    ensures s.bassIntensity == 0.0 ==> BassAcid(s, beat, d.bassGate, d.bassDegree, d.bassShift).None?
    ensures s.melodyIntensity == 0.0 ==> MelodySparse(s, beat, bar, d.melodyGate, d.melodyDegree).None?
  {
  }

  /** At intensity 1 the gates always pass where the beat allows it. */
  lemma AlwaysAtFullIntensity(s: Session, beat: nat, bar: nat, d: JamDraws)
    requires Scales.IsScaleType(s.scaleType)
    requires DrawsFit(d, |Scales.CurrentScale(s.keyRoot, s.scaleType)|)
    ensures s.bassIntensity == 1.0 && (beat == 0 || beat == 2) ==> BassBasic(s, beat, bar, d.bassGate).Some?
    ensures s.bassIntensity == 1.0 ==> BassAcid(s, beat, d.bassGate, d.bassDegree, d.bassShift).Some?
    ensures s.melodyIntensity == 1.0 && beat == 0 && bar % 4 == 0 ==>
      MelodySparse(s, beat, bar, d.melodyGate, d.melodyDegree).Some?
  {
  }

  /** On beat 1 the breakbeat pattern always plays exactly one snare and nothing else. */
  lemma BreaksBeatOne(draw: real)
    ensures DrumBreaks(1, draw) == [SnareHit]
  {
  }
}

=== FILE: scales.dfy ===
/** The jam session's scale table and the mapping from (key root, scale type) to
    absolute pitches (jam_session.py get_current_scale). */
module Scales {

  /** Middle C: the scale's tonic is this plus the key root. */
  const BasePitch: int := 60

  const MajorSteps: seq<int> := [0, 2, 4, 5, 7, 9, 11]
  const MinorSteps: seq<int> := [0, 2, 3, 5, 7, 8, 10]
  const PentatonicSteps: seq<int> := [0, 2, 4, 7, 9]
  const BluesSteps: seq<int> := [0, 2, 3, 6, 7, 8, 11]

  /** The selectors the table is keyed by: 0 major, 1 minor, 2 pentatonic, 3 blues. */
  predicate IsScaleType(scaleType: int) {
    0 <= scaleType < 4
  }

  /** Intervals of each scale above its tonic: they start at the tonic, rise
      strictly and stay within one octave. */
  function Intervals(scaleType: int): (iv: seq<int>)
    requires IsScaleType(scaleType)
    ensures 5 <= |iv| <= 7
    ensures iv[0] == 0
    ensures forall i, j :: 0 <= i < j < |iv| ==> iv[i] < iv[j]
    ensures forall i :: 0 <= i < |iv| ==> 0 <= iv[i] <= 11
  {
    if scaleType == 0 then MajorSteps
    else if scaleType == 1 then MinorSteps
    else if scaleType == 2 then PentatonicSteps
    else BluesSteps
  }

  /** The pitches of the selected scale, rooted at BasePitch + keyRoot. */
  function CurrentScale(keyRoot: int, scaleType: int): (s: seq<int>)
    requires IsScaleType(scaleType)
    ensures |s| == |Intervals(scaleType)|
    ensures forall i :: 0 <= i < |s| ==> s[i] - keyRoot - BasePitch == Intervals(scaleType)[i]
  {
    seq(|Intervals(scaleType)|, i requires 0 <= i < |Intervals(scaleType)| =>
      BasePitch + keyRoot + Intervals(scaleType)[i])
  }

  /** The pitches are strictly ascending and the first one is the tonic. */
  lemma ScaleAscending(keyRoot: int, scaleType: int)
    requires IsScaleType(scaleType)
    ensures CurrentScale(keyRoot, scaleType)[0] == BasePitch + keyRoot
    ensures forall i, j :: 0 <= i < j < |CurrentScale(keyRoot, scaleType)| ==>
      CurrentScale(keyRoot, scaleType)[i] < CurrentScale(keyRoot, scaleType)[j]
  {
  }

  /** For the twelve key roots every pitch lies between middle C and the B-flat
      almost two octaves above it (60..82). */
  lemma ScaleRange(keyRoot: int, scaleType: int)
    requires 0 <= keyRoot < 12 && IsScaleType(scaleType)
    ensures forall p :: p in CurrentScale(keyRoot, scaleType) ==> 60 <= p <= 82
  {
    var s := CurrentScale(keyRoot, scaleType);
    forall p | p in s
      ensures 60 <= p <= 82
    {
      var i :| 0 <= i < |s| && s[i] == p;
      assert 0 <= Intervals(scaleType)[i] <= 11;
    }
  }

  /** Changing the key moves every degree of the scale by the same amount. */
  lemma ScaleTransposes(k1: int, k2: int, scaleType: int)
    requires IsScaleType(scaleType)
    ensures |CurrentScale(k1, scaleType)| == |CurrentScale(k2, scaleType)|
    ensures forall i :: 0 <= i < |CurrentScale(k1, scaleType)| ==>
      CurrentScale(k2, scaleType)[i] - CurrentScale(k1, scaleType)[i] == k2 - k1
  {
  }

  /** C major is the white keys from middle C. */
  lemma CMajor()
    ensures CurrentScale(0, 0) == [60, 62, 64, 65, 67, 69, 71]
  {
  }
}

=== FILE: session_control.dfy ===
/** The jam session's live parameters and the menu handlers that change them
    (jam_session.py __init__, start_jam, stop_jam and the branches of main). */
module SessionControl {
  import Scales

  datatype Session = Session(
    portOpen: bool,          // an output port is connected
    playing: bool,           // is_playing
    bpm: int,
    beatDuration: real,      // seconds per beat
    drumsEnabled: bool,
    bassEnabled: bool,
    melodyEnabled: bool,
    drumIntensity: real,
    bassIntensity: real,
    melodyIntensity: real,
    keyRoot: int,            // 0 = C, 1 = C#, ..., 11 = B
    scaleType: int,          // index into the scale table
    drumPattern: int,        // 0 = basic, anything else = breaks
    bassPattern: int)        // 0 = basic, anything else = acid

  const MinBpm: int := 60
  const MaxBpm: int := 200
  const KeyCount: int := 12
  const ScaleCount: int := 4

  predicate InUnit(x: real) {
    0.0 <= x <= 1.0
  }

  /** What the handlers keep true, and what the table lookups by key root and
      scale type rely on. */
  predicate Valid(s: Session) {
    && MinBpm <= s.bpm <= MaxBpm
    && s.beatDuration == 60.0 / s.bpm as real
    && InUnit(s.drumIntensity) && InUnit(s.bassIntensity) && InUnit(s.melodyIntensity)
    && 0 <= s.keyRoot < KeyCount
    && Scales.IsScaleType(s.scaleType)
    && s.drumPattern in {0, 1}
    && s.bassPattern in {0, 1}
  }

  /** The state right after construction; the port is connected afterwards.
      The loop counter belongs to the loop itself (BeatClock.PlayLoop). */
  function Initial(portOpen: bool): (s: Session)
    ensures Valid(s) && !s.playing && s.portOpen == portOpen
    ensures s.bpm == 128 && s.beatDuration == 60.0 / 128.0
    ensures s.drumsEnabled && s.bassEnabled && s.melodyEnabled
    ensures s.drumIntensity == 1.0 && s.bassIntensity == 0.8 && s.melodyIntensity == 0.3
    ensures s.keyRoot == 0 && s.scaleType == 0 && s.drumPattern == 0 && s.bassPattern == 0
    ensures Scales.CurrentScale(s.keyRoot, s.scaleType) == [60, 62, 64, 65, 67, 69, 71]
  {
    Scales.CMajor();
    Session(portOpen, false, 128, 60.0 / 128.0, true, true, true, 1.0, 0.8, 0.3, 0, 0, 0, 0)
  }

  /** Python's max(0.0, min(1.0, x)). */
  function Clamp(x: real): (r: real)
    ensures InUnit(r)
    ensures InUnit(x) ==> r == x
    ensures x < 0.0 ==> r == 0.0
    ensures x > 1.0 ==> r == 1.0
  {
    if x < 0.0 then 0.0 else if x > 1.0 then 1.0 else x
  }

  /** Menu [4]: accept a tempo in 60..200 and recompute the beat length from it;
      otherwise change nothing. */
  function SetBpm(s: Session, bpm: int): (r: Session)
    ensures Valid(s) ==> Valid(r)
    ensures MinBpm <= bpm <= MaxBpm ==> r.bpm == bpm && r.beatDuration == 60.0 / bpm as real
    ensures !(MinBpm <= bpm <= MaxBpm) ==> r == s
    ensures r.(bpm := s.bpm, beatDuration := s.beatDuration) == s
  {
    if MinBpm <= bpm <= MaxBpm then s.(bpm := bpm, beatDuration := 60.0 / bpm as real) else s
  }

  /** Menu [8]: each intensity is clamped into [0, 1]. */
  function SetIntensities(s: Session, drum: real, bass: real, melody: real): (r: Session)
    ensures Valid(s) ==> Valid(r)
    ensures InUnit(r.drumIntensity) && InUnit(r.bassIntensity) && InUnit(r.melodyIntensity)
    ensures r.drumIntensity == Clamp(drum) && r.bassIntensity == Clamp(bass)
    ensures r.melodyIntensity == Clamp(melody)
    ensures InUnit(drum) ==> r.drumIntensity == drum
    ensures InUnit(bass) ==> r.bassIntensity == bass
    ensures InUnit(melody) ==> r.melodyIntensity == melody
    ensures r.(drumIntensity := s.drumIntensity, bassIntensity := s.bassIntensity,
               melodyIntensity := s.melodyIntensity) == s
  {
    s.(drumIntensity := Clamp(drum), bassIntensity := Clamp(bass), melodyIntensity := Clamp(melody))
  }

  /** Menu [9]: a key index is accepted iff it names one of the twelve keys. */
  function SetKey(s: Session, key: int): (r: Session)
    ensures Valid(s) ==> Valid(r)
    ensures r.keyRoot == key <==> 0 <= key < KeyCount || s.keyRoot == key
    ensures !(0 <= key < KeyCount) ==> r == s
    ensures r.(keyRoot := s.keyRoot) == s
  {
    if 0 <= key < KeyCount then s.(keyRoot := key) else s
  }

  /** Menu [10]: a scale index is accepted iff it names one of the four scales. */
  function SetScale(s: Session, scale: int): (r: Session)
    ensures Valid(s) ==> Valid(r)
    ensures r.scaleType == scale <==> 0 <= scale < ScaleCount || s.scaleType == scale
    ensures !(0 <= scale < ScaleCount) ==> r == s
    ensures r.(scaleType := s.scaleType) == s
  {
    if 0 <= scale < ScaleCount then s.(scaleType := scale) else s
  }

  /** Menu [11]: each pattern selector is accepted on its own iff it is 0 or 1. */
  function SetPatterns(s: Session, drum: int, bass: int): (r: Session)
    ensures Valid(s) ==> Valid(r)
    ensures r.drumPattern == (if drum in {0, 1} then drum else s.drumPattern)
    ensures r.bassPattern == (if bass in {0, 1} then bass else s.bassPattern)
    ensures r.(drumPattern := s.drumPattern, bassPattern := s.bassPattern) == s
  {
    s.(drumPattern := if drum in {0, 1} then drum else s.drumPattern,
       bassPattern := if bass in {0, 1} then bass else s.bassPattern)
  }

  /** start_jam: a session already playing is left alone; otherwise the loop thread
      is started and it raises the play flag. */
  function Start(s: Session): (r: Session)
    ensures Valid(s) ==> Valid(r)
    ensures r.playing
    ensures s.playing ==> r == s
    ensures r.(playing := s.playing) == s
  {
    if !s.playing then s.(playing := true) else s
  }

  /** stop_jam: only the play flag is cleared; timers already running are untouched. */
  function Stop(s: Session): (r: Session)
    ensures Valid(s) ==> Valid(r)
    ensures !r.playing
    ensures r.(playing := s.playing) == s
  {
    if s.playing then s.(playing := false) else s
  }

  datatype Voice = Drums | Bass | Melody

  /** Menus [5], [6], [7]: flip one voice's enabled flag. */
  function Toggle(s: Session, v: Voice): (r: Session)
    ensures Valid(s) ==> Valid(r)
    ensures v == Drums ==> r.drumsEnabled == !s.drumsEnabled && r.(drumsEnabled := s.drumsEnabled) == s
    ensures v == Bass ==> r.bassEnabled == !s.bassEnabled && r.(bassEnabled := s.bassEnabled) == s
    ensures v == Melody ==> r.melodyEnabled == !s.melodyEnabled && r.(melodyEnabled := s.melodyEnabled) == s
  {
    match v
    case Drums => s.(drumsEnabled := !s.drumsEnabled)
    case Bass => s.(bassEnabled := !s.bassEnabled)
    case Melody => s.(melodyEnabled := !s.melodyEnabled)
  }

  /** The menu choices, with the numbers they already parsed. */
  datatype Command =
    | Quit                                          // [0]
    | StartJam                                      // [1]
    | StopJam                                       // [2]
    | ShowStatus                                    // [3]
    | ChangeBpm(bpm: int)                           // [4]
    | ToggleVoice(voice: Voice)                     // [5], [6], [7]
    | AdjustIntensities(drum: real, bass: real, melody: real)  // [8]
    | ChangeKey(key: int)                           // [9]
    | ChangeScale(scale: int)                       // [10]
    | ChangePatterns(drumPattern: int, bassPattern: int)  // [11]

  /** One menu choice. No choice opens or closes the port; only [1] starts the jam,
      [0] and [2] stop it, the settings leave the play flag alone, and the status
      screen changes nothing. Each setting is its handler: the tempo when it is in
      range, the chosen voice's flag, the three intensities clamped, the key, scale
      and patterns when they name a valid choice (see each handler's contract). */
  function Apply(s: Session, c: Command): (r: Session)
    ensures r.portOpen == s.portOpen
    ensures c.StartJam? ==> r.playing
    ensures c.Quit? || c.StopJam? ==> !r.playing
    ensures !(c.StartJam? || c.Quit? || c.StopJam?) ==> r.playing == s.playing
    ensures c.ShowStatus? ==> r == s
    ensures c.ChangeBpm? ==> r == SetBpm(s, c.bpm)
    ensures c.ToggleVoice? ==> r == Toggle(s, c.voice)
    ensures c.AdjustIntensities? ==> r == SetIntensities(s, c.drum, c.bass, c.melody)
    ensures c.ChangeKey? ==> r == SetKey(s, c.key)
    ensures c.ChangeScale? ==> r == SetScale(s, c.scale)
    ensures c.ChangePatterns? ==> r == SetPatterns(s, c.drumPattern, c.bassPattern)
  {
    match c
    case Quit => Stop(s)
    case StartJam => Start(s)
    case StopJam => Stop(s)
    case ShowStatus => s
    case ChangeBpm(b) => SetBpm(s, b)
    case ToggleVoice(v) => Toggle(s, v)
    case AdjustIntensities(d, b, m) => SetIntensities(s, d, b, m)
    case ChangeKey(k) => SetKey(s, k)
    case ChangeScale(t) => SetScale(s, t)
    case ChangePatterns(d, b) => SetPatterns(s, d, b)
  }

  /** Whatever the user types, every handler keeps the session valid. */
  lemma ApplyKeepsValid(s: Session, c: Command)
    requires Valid(s)
    ensures Valid(Apply(s, c))
  {
  }

  /** The menu loop over a sequence of commands: each is applied in order, and
      [0] stops the jam and leaves the loop, so nothing after it takes effect. */
  function ApplyAll(s: Session, cs: seq<Command>): (r: Session)
    ensures r.portOpen == s.portOpen
    ensures Quit in cs ==> !r.playing
    ensures (forall c :: c in cs ==> !c.StartJam?) && !s.playing ==> !r.playing
    decreases |cs|
  {
    if cs == [] then s
    else if cs[0].Quit? then Stop(s)
    else
      assert forall c :: c in cs[1..] ==> c in cs;
      ApplyAll(Apply(s, cs[0]), cs[1..])
  }

  /** Commands before any [0] are applied one after another: running the menu on
      cs1 and then on cs2 is running it on cs1 + cs2. */
  lemma {:induction false} ApplyAllAppend(s: Session, cs1: seq<Command>, cs2: seq<Command>)
    requires Quit !in cs1
    ensures ApplyAll(s, cs1 + cs2) == ApplyAll(ApplyAll(s, cs1), cs2)
    decreases |cs1|
  {
    if cs1 == [] {
      assert cs1 + cs2 == cs2;
    } else {
      assert (cs1 + cs2)[0] == cs1[0];
      assert (cs1 + cs2)[1..] == cs1[1..] + cs2;
      assert Quit !in cs1[1..] by {
        assert forall c :: c in cs1[1..] ==> c in cs1;
      }
      ApplyAllAppend(Apply(s, cs1[0]), cs1[1..], cs2);
    }
  }

  /** Without [0], the session after the menu is the last command applied to the
      session before it. */
  lemma ApplyAllLast(s: Session, cs: seq<Command>)
    requires cs != [] && Quit !in cs
    ensures ApplyAll(s, cs) == Apply(ApplyAll(s, cs[..|cs| - 1]), cs[|cs| - 1])
  {
    var front, last := cs[..|cs| - 1], cs[|cs| - 1];
    assert cs == front + [last];
    assert Quit !in front by {
      assert forall c :: c in front ==> c in cs;
    }
    ApplyAllAppend(s, front, [last]);
    assert [last][1..] == [];
  }

  /** [0] after some commands: they take effect in order, then the jam stops, and
      whatever follows is never read. */
  lemma ApplyAllQuit(s: Session, cs1: seq<Command>, cs2: seq<Command>)
    requires Quit !in cs1
    ensures ApplyAll(s, cs1 + [Quit] + cs2) == Stop(ApplyAll(s, cs1))
  {
    assert cs1 + [Quit] + cs2 == cs1 + ([Quit] + cs2);
    ApplyAllAppend(s, cs1, [Quit] + cs2);
  }

  lemma {:induction false} ApplyAllKeepsValid(s: Session, cs: seq<Command>)
    requires Valid(s)
    ensures Valid(ApplyAll(s, cs))
    decreases |cs|
  {
    if cs != [] {
      ApplyKeepsValid(s, cs[0]);
      ApplyAllKeepsValid(Apply(s, cs[0]), cs[1..]);
    }
  }

  /** Leaving the menu stops the jam, and commands typed after [0] are never read. */
  lemma QuitEndsSession(s: Session, rest: seq<Command>)
    ensures !ApplyAll(s, [Quit] + rest).playing
    ensures ApplyAll(s, [Quit] + rest) == ApplyAll(s, [Quit])
  {
  }

  /** The tempo bounds are inclusive: 60 gives one-second beats, 200 gives 0.3 s;
      59 and 201 are refused. */
  lemma TempoBounds(s: Session)
    ensures SetBpm(s, 60).beatDuration == 1.0
    ensures SetBpm(s, 200).beatDuration == 0.3
    ensures SetBpm(s, 59) == s && SetBpm(s, 201) == s
  {
  }

  /** Toggling a voice twice restores the session. */
  lemma ToggleTwice(s: Session, v: Voice)
    ensures Toggle(Toggle(s, v), v) == s
  {
  }

  /** Clamping an intensity a second time changes nothing. */
  lemma ClampIdempotent(x: real)
    ensures Clamp(Clamp(x)) == Clamp(x)
  {
  }
}

=== FILE: techno_loop.dfy ===
/** The fixed techno loop (midi_generator.py play_techno_loop). Drums are switched
    on and off inside each beat; bass and melody notes are remembered in two lists
    of (note, off time) that a sweep at the end of every beat releases once they
    are due, and whatever is left is released when the loop ends.

    A beat runs in three phases separated by sleeps: the onsets (kick, snare, bass,
    melody), the hi-hat, then the drum note-offs and the sweeps. The loop only ever
    ends through a keyboard interrupt, which lands in one of those sleeps. */
module TechnoLoop {
  import opened Midi
  import BeatClock

  const BassNotes: seq<int> := [36, 38, 41, 43]
  const MelodyNotes: seq<int> := [60, 62, 65, 67, 69, 72]

  /** How long after the beat's start a bass or melody note is released. */
  const BassHold: real := 0.7
  const MelodyHold: real := 1.5

  /** One beat's random draws: randint results for the velocities, random() for the
      gates, and the index random.choice takes into the melody table. */
  datatype TechnoDraws = TechnoDraws(
    kickVelocity: int,
    snareVelocity: int,
    bassGate: real,
    bassVelocity: int,
    melodyGate: real,
    melodyChoice: int,
    melodyVelocity: int,
    hihatVelocity: int)

  predicate DrawsInRange(d: TechnoDraws) {
    && 100 <= d.kickVelocity <= 127
    && 90 <= d.snareVelocity <= 120
    && 0.0 <= d.bassGate < 1.0
    && 80 <= d.bassVelocity <= 110
    && 0.0 <= d.melodyGate < 1.0
    && 0 <= d.melodyChoice < |MelodyNotes|
    && 70 <= d.melodyVelocity <= 100
    && 60 <= d.hihatVelocity <= 90
  }

  /** A bass or melody note waiting for its note-off. */
  datatype Active = Active(note: int, offTime: real)

  /** The output trace and the two lists of notes still sounding. */
  datatype TechnoState = TechnoState(trace: seq<Message>, bass: seq<Active>, melody: seq<Active>)

  const Silence: TechnoState := TechnoState([], [], [])

  function Notes(a: seq<Active>): (ns: seq<int>)
    ensures |ns| == |a|
    ensures forall i :: 0 <= i < |a| ==> ns[i] == a[i].note
  {
    seq(|a|, i requires 0 <= i < |a| => a[i].note)
  }

  lemma NotesAppend(a: seq<Active>, b: seq<Active>)
    ensures Notes(a + b) == Notes(a) + Notes(b)
  {
  }

  // ----- per-beat decisions -----

  predicate SnareBeat(beat: nat) {
    beat == 1 || beat == 3
  }

  /** Bass on beats 0 and 2 when the draw exceeds 0.2; the note changes every
      four bars and cycles through the table every sixteen. */
  function BassChoice(bar: nat, beat: nat, gate: real): (r: Option<int>)
    ensures r.Some? <==> (beat == 0 || beat == 2) && gate > 0.2
    ensures r.Some? ==> r.value in BassNotes && r.value == BassNotes[(bar / 4) % 4]
  {
    if (beat == 0 || beat == 2) && gate > 0.2 then Some(BassNotes[bar / 4 % |BassNotes|]) else None
  }

  /** The bass note is the same across each group of four bars, and the pattern
      repeats every sixteen bars. */
  lemma BassFollowsBarGroups(bar1: nat, bar2: nat, beat: nat, gate: real)
    ensures bar1 / 4 == bar2 / 4 ==> BassChoice(bar1, beat, gate) == BassChoice(bar2, beat, gate)
    ensures BassChoice(bar1 + 16, beat, gate) == BassChoice(bar1, beat, gate)
  {
    assert (bar1 + 16) / 4 == bar1 / 4 + 4;
  }

  /** Melody only on beat 0 of every fourth bar, when the draw exceeds 0.4, a note
      of the six-note table. */
  function MelodyChoice(bar: nat, beat: nat, gate: real, choice: int): (r: Option<int>)
    requires 0 <= choice < |MelodyNotes|
    ensures r.Some? <==> bar % 4 == 0 && beat == 0 && gate > 0.4
    ensures r.Some? ==> r.value in MelodyNotes
  {
    if bar % 4 == 0 && beat == 0 && gate > 0.4 then Some(MelodyNotes[choice]) else None
  }

  function OnIf(o: Option<int>, channel: int, velocity: int): seq<Message> {
    if o.Some? then [NoteOn(channel, o.value, velocity)] else []
  }

  function HoldIf(o: Option<int>, offTime: real): seq<Active> {
    if o.Some? then [Active(o.value, offTime)] else []
  }

  /** The drum notes switched on by the onsets phase: kick, then snare on beats 1, 3. */
  function DrumOnsets(beat: nat): seq<int> {
    [KickNote] + (if SnareBeat(beat) then [SnareNote] else [])
  }

  function DrumOnsetMessages(beat: nat, d: TechnoDraws): seq<Message> {
    [NoteOn(DrumChannel, KickNote, d.kickVelocity)]
      + (if SnareBeat(beat) then [NoteOn(DrumChannel, SnareNote, d.snareVelocity)] else [])
  }

  /** The messages of the onsets phase, in the order the source sends them. */
  function OnsetMessages(beat: nat, b: Option<int>, m: Option<int>, d: TechnoDraws): seq<Message> {
    DrumOnsetMessages(beat, d)
      + OnIf(b, BassChannel, d.bassVelocity)
      + OnIf(m, MelodyChannel, d.melodyVelocity)
  }

  /** The onsets phase sends only valid note-ons; the kick always, the snare iff
      the beat is 1 or 3. */
  lemma OnsetMessagesContent(beat: nat, b: Option<int>, m: Option<int>, d: TechnoDraws)
    requires DrawsInRange(d)
    requires b.Some? ==> b.value in BassNotes
    requires m.Some? ==> m.value in MelodyNotes
    ensures forall x :: x in OnsetMessages(beat, b, m, d) ==> x.NoteOn? && ValidMessage(x)
    ensures NoteOn(DrumChannel, KickNote, d.kickVelocity) in OnsetMessages(beat, b, m, d)
    ensures NoteOn(DrumChannel, SnareNote, d.snareVelocity) in OnsetMessages(beat, b, m, d) <==> SnareBeat(beat)
  {
    var drums := DrumOnsetMessages(beat, d);
    var rest := OnIf(b, BassChannel, d.bassVelocity) + OnIf(m, MelodyChannel, d.melodyVelocity);
    assert OnsetMessages(beat, b, m, d) == drums + rest;
    assert forall x :: x in rest ==> x.channel != DrumChannel && x.NoteOn? && ValidMessage(x);
    assert forall x :: x in drums ==> x.NoteOn? && ValidMessage(x);
    assert drums[0] == NoteOn(DrumChannel, KickNote, d.kickVelocity);
  }

  /** The onset step of a beat: kick always, snare on beats 1 and 3, the bass and melody notes
      when their gates pass; bass and melody are remembered with their off times. */
  function Onsets(st: TechnoState, bar: nat, beat: nat, d: TechnoDraws, beatStart: real): (r: TechnoState)
    requires DrawsInRange(d)
    ensures |r.trace| > |st.trace| && r.trace[..|st.trace|] == st.trace
    ensures NoteOn(DrumChannel, KickNote, d.kickVelocity) in r.trace[|st.trace|..]
    ensures NoteOn(DrumChannel, SnareNote, d.snareVelocity) in r.trace[|st.trace|..] <==> SnareBeat(beat)
    ensures forall m :: m in r.trace[|st.trace|..] ==> m.NoteOn? && ValidMessage(m)
    ensures |r.bass| == |st.bass| + (if BassChoice(bar, beat, d.bassGate).Some? then 1 else 0)
    ensures |r.bass| > |st.bass| ==> r.bass[|st.bass|] == Active(BassNotes[(bar / 4) % 4], beatStart + BassHold)
    ensures |r.melody| == |st.melody| + (if MelodyChoice(bar, beat, d.melodyGate, d.melodyChoice).Some? then 1 else 0)
    ensures |r.melody| > |st.melody| ==> r.melody[|st.melody|].offTime == beatStart + MelodyHold
    ensures r.bass[..|st.bass|] == st.bass && r.melody[..|st.melody|] == st.melody
    ensures r.trace == st.trace + OnsetMessages(beat, BassChoice(bar, beat, d.bassGate),
                                                MelodyChoice(bar, beat, d.melodyGate, d.melodyChoice), d)
    ensures r.bass == st.bass + HoldIf(BassChoice(bar, beat, d.bassGate), beatStart + BassHold)
    ensures r.melody == st.melody + HoldIf(MelodyChoice(bar, beat, d.melodyGate, d.melodyChoice), beatStart + MelodyHold)
  {
    var b := BassChoice(bar, beat, d.bassGate);
    var m := MelodyChoice(bar, beat, d.melodyGate, d.melodyChoice);
    var seg := OnsetMessages(beat, b, m, d);
    OnsetMessagesContent(beat, b, m, d);
    assert (st.trace + seg)[|st.trace|..] == seg;
    TechnoState(st.trace + seg, st.bass + HoldIf(b, beatStart + BassHold), st.melody + HoldIf(m, beatStart + MelodyHold))
  }

  /** The hi-hat step: the hi-hat, half a beat after the onsets. */
  function HiHat(st: TechnoState, d: TechnoDraws): (r: TechnoState)
    requires DrawsInRange(d)
    ensures |r.trace| == |st.trace| + 1 && r.trace[..|st.trace|] == st.trace
    ensures r.trace[|st.trace|] == NoteOn(DrumChannel, HiHatNote, d.hihatVelocity)
    ensures ValidMessage(r.trace[|st.trace|])
    ensures r.bass == st.bass && r.melody == st.melody
    ensures r.trace == st.trace + [NoteOn(DrumChannel, HiHatNote, d.hihatVelocity)]
  {
    var on := NoteOn(DrumChannel, HiHatNote, d.hihatVelocity);
    assert (st.trace + [on])[..|st.trace|] == st.trace;
    st.(trace := st.trace + [on])
  }

  // ----- the sweep -----

  predicate Due(a: Active, now: real) {
    now >= a.offTime
  }

  /** The entries whose off time has come, in list order. */
  function Expired(a: seq<Active>, now: real): seq<Active>
  {
    if a == [] then []
    else Expired(a[..|a| - 1], now) + (if Due(a[|a| - 1], now) then [a[|a| - 1]] else [])
  }

  /** The entries still sounding, in list order. */
  function Live(a: seq<Active>, now: real): seq<Active>
  {
    if a == [] then []
    else Live(a[..|a| - 1], now) + (if Due(a[|a| - 1], now) then [] else [a[|a| - 1]])
  }

  /** The sweep splits the list: an entry is released iff it is due and kept iff it
      is not; nothing is added, lost or duplicated. */
  lemma {:induction false} SweepPartition(a: seq<Active>, now: real)
    ensures multiset(a) == multiset(Expired(a, now)) + multiset(Live(a, now))
    ensures forall x :: x in Expired(a, now) <==> x in a && Due(x, now)
    ensures forall x :: x in Live(a, now) <==> x in a && !Due(x, now)
    decreases |a|
  {
    if a != [] {
      var init := a[..|a| - 1];
      var last := a[|a| - 1];
      assert a == init + [last];
      SweepPartition(init, now);
    }
  }

  /** The kept entries stay in their original relative order: sweeping a list in
      two pieces gives the two sweeps one after the other. */
  lemma {:induction false} SweepKeepsOrder(a: seq<Active>, b: seq<Active>, now: real)
    ensures Live(a + b, now) == Live(a, now) + Live(b, now)
    ensures Expired(a + b, now) == Expired(a, now) + Expired(b, now)
    decreases |b|
  {
    if b == [] {
      assert a + b == a;
    } else {
      var init := b[..|b| - 1];
      assert (a + b)[..|a + b| - 1] == a + init;
      assert (a + b)[|a + b| - 1] == b[|b| - 1];
      SweepKeepsOrder(a, init, now);
    }
  }

  lemma NotesSnocKeys(channel: int, a: seq<Active>, x: Active)
    ensures Keys(channel, Notes(a + [x])) == Keys(channel, Notes(a)) + multiset{Key(channel, x.note)}
  {
    NotesAppend(a, [x]);
    assert Notes([x]) == [x.note];
    KeysAppend(channel, Notes(a), [x.note]);
    assert [x.note][1..] == [];
  }

  /** What the sweep does to the sounding keys: those of the list are those released
      plus those kept. */
  lemma {:induction false} SweepKeys(channel: int, a: seq<Active>, now: real)
    ensures Keys(channel, Notes(a)) == Keys(channel, Notes(Expired(a, now))) + Keys(channel, Notes(Live(a, now)))
    decreases |a|
  {
    if a != [] {
      var init := a[..|a| - 1];
      var last := a[|a| - 1];
      assert a == init + [last];
      SweepKeys(channel, init, now);
      NotesSnocKeys(channel, init, last);
      if Due(last, now) {
        assert Expired(a, now) == Expired(init, now) + [last];
        assert Live(a, now) == Live(init, now);
        NotesSnocKeys(channel, Expired(init, now), last);
      } else {
        assert Expired(a, now) == Expired(init, now);
        assert Live(a, now) == Live(init, now) + [last];
        NotesSnocKeys(channel, Live(init, now), last);
      }
    }
  }

  lemma {:induction false} ReleasesAppend(channel: int, a: seq<int>, b: seq<int>)
    ensures Releases(channel, a + b) == Releases(channel, a) + Releases(channel, b)
  {
    var l := Releases(channel, a + b);
    var r := Releases(channel, a) + Releases(channel, b);
    assert |l| == |r|;
    forall i | 0 <= i < |l|
      ensures l[i] == r[i]
    {
      if i < |a| {
        assert (a + b)[i] == a[i];
      } else {
        assert (a + b)[i] == b[i - |a|];
      }
    }
  }

  /** One more entry of the list: it joins the released or the kept ones. */
  lemma SweepStep(active: seq<Active>, i: nat, now: real)
    requires i < |active|
    ensures Expired(active[..i + 1], now)
            == Expired(active[..i], now) + (if Due(active[i], now) then [active[i]] else [])
    ensures Live(active[..i + 1], now)
            == Live(active[..i], now) + (if Due(active[i], now) then [] else [active[i]])
  {
    var p := active[..i + 1];
    assert p[..|p| - 1] == active[..i];
    assert p[|p| - 1] == active[i];
  }

  lemma ReleaseOne(channel: int, xs: seq<Active>, a: Active)
    ensures Releases(channel, Notes(xs + [a])) == Releases(channel, Notes(xs)) + [NoteOff(channel, a.note, 0)]
  {
    NotesAppend(xs, [a]);
    assert Notes([a]) == [a.note];
    ReleasesAppend(channel, Notes(xs), [a.note]);
  }

  /** The sweep of an active-note list, as written: walk the list once, send a note-off for each due
      entry and keep the others. */
  method Sweep(active: seq<Active>, now: real, channel: int) returns (sent: seq<Message>, kept: seq<Active>)
    ensures sent == Releases(channel, Notes(Expired(active, now)))
    ensures kept == Live(active, now)
  {
    sent := [];
    kept := [];
    var i := 0;
    while i < |active|
      invariant 0 <= i <= |active|
      invariant sent == Releases(channel, Notes(Expired(active[..i], now)))
      invariant kept == Live(active[..i], now)
    {
      var a := active[i];
      SweepStep(active, i, now);
      if now >= a.offTime {
        ReleaseOne(channel, Expired(active[..i], now), a);
        sent := sent + [NoteOff(channel, a.note, 0)];
      } else {
        kept := kept + [a];
      }
      i := i + 1;
    }
    assert active[..|active|] == active;
  }

  /** The drum notes released at the end of a beat: kick, hi-hat, snare on beats 1, 3. */
  function DrumOffNotes(beat: nat): seq<int> {
    [KickNote, HiHatNote] + (if SnareBeat(beat) then [SnareNote] else [])
  }

  /** The messages of the offs phase, given the notes due in each list. */
  function OffMessages(beat: nat, bassDue: seq<int>, melodyDue: seq<int>): seq<Message> {
    Releases(DrumChannel, DrumOffNotes(beat)) + Releases(BassChannel, bassDue) + Releases(MelodyChannel, melodyDue)
  }

  /** The offs phase sends only note-offs: the kick's and the hi-hat's always, the
      snare's on beats 1 and 3. */
  lemma OffMessagesContent(beat: nat, bassDue: seq<int>, melodyDue: seq<int>)
    ensures |OffMessages(beat, bassDue, melodyDue)| >= 2
    ensures NoteOff(DrumChannel, KickNote, 0) in OffMessages(beat, bassDue, melodyDue)
    ensures NoteOff(DrumChannel, HiHatNote, 0) in OffMessages(beat, bassDue, melodyDue)
    ensures SnareBeat(beat) ==> NoteOff(DrumChannel, SnareNote, 0) in OffMessages(beat, bassDue, melodyDue)
    ensures forall m :: m in OffMessages(beat, bassDue, melodyDue) ==> m.NoteOff?
  {
    var drums := Releases(DrumChannel, DrumOffNotes(beat));
    var bass := Releases(BassChannel, bassDue);
    var melody := Releases(MelodyChannel, melodyDue);
    assert OffMessages(beat, bassDue, melodyDue) == drums + bass + melody;
    assert drums[0] == NoteOff(DrumChannel, KickNote, 0) && drums[1] == NoteOff(DrumChannel, HiHatNote, 0);
    assert SnareBeat(beat) ==> drums[2] == NoteOff(DrumChannel, SnareNote, 0);
    assert forall m :: m in drums ==> m.NoteOff?;
    assert forall m :: m in bass ==> m.NoteOff?;
    assert forall m :: m in melody ==> m.NoteOff?;
  }

  /** The note-off step of a beat: drum note-offs for kick and hi-hat, for the snare on beats 1 and
      3, then the bass and melody sweeps at clock reading `now`. */
  function Offs(st: TechnoState, beat: nat, now: real): (r: TechnoState)
    ensures r.bass == Live(st.bass, now) && r.melody == Live(st.melody, now)
    ensures |r.trace| >= |st.trace| + 2 && r.trace[..|st.trace|] == st.trace
    ensures NoteOff(DrumChannel, KickNote, 0) in r.trace[|st.trace|..]
    ensures NoteOff(DrumChannel, HiHatNote, 0) in r.trace[|st.trace|..]
    ensures SnareBeat(beat) ==> NoteOff(DrumChannel, SnareNote, 0) in r.trace[|st.trace|..]
    ensures forall m :: m in r.trace[|st.trace|..] ==> m.NoteOff?
    ensures r.trace == st.trace + OffMessages(beat, Notes(Expired(st.bass, now)), Notes(Expired(st.melody, now)))
  {
    var offs := OffMessages(beat, Notes(Expired(st.bass, now)), Notes(Expired(st.melody, now)));
    OffMessagesContent(beat, Notes(Expired(st.bass, now)), Notes(Expired(st.melody, now)));
    assert (st.trace + offs)[..|st.trace|] == st.trace;
    assert (st.trace + offs)[|st.trace|..] == offs;
    TechnoState(st.trace + offs, Live(st.bass, now), Live(st.melody, now))
  }

  /** One full beat at position (bar, beat): onsets, hi-hat, offs. A beat only
      appends to the trace: the kick and the hi-hat on and off, the snare on and
      off on beats 1 and 3 only. The lists gain this beat's bass and melody notes
      and lose every entry due at `now`, so none still held is due. */
  function Beat(st: TechnoState, bar: nat, beat: nat, d: TechnoDraws, beatStart: real, now: real): (r: TechnoState)
    requires DrawsInRange(d)
    ensures |r.trace| >= |st.trace| + 4 && r.trace[..|st.trace|] == st.trace
    ensures DrumsOnAndOff(r.trace[|st.trace|..], beat, d)
    ensures r.bass == Live(st.bass + HoldIf(BassChoice(bar, beat, d.bassGate), beatStart + BassHold), now)
    ensures r.melody == Live(st.melody + HoldIf(MelodyChoice(bar, beat, d.melodyGate, d.melodyChoice), beatStart + MelodyHold), now)
    ensures forall a :: a in r.bass ==> !Due(a, now)
    ensures forall a :: a in r.melody ==> !Due(a, now)
  {
    BeatTrace(st, bar, beat, d, beatStart, now);
    BeatLists(st, bar, beat, d, beatStart, now);
    Offs(HiHat(Onsets(st, bar, beat, d, beatStart), d), beat, now)
  }

  /** The trace side of a beat: a prefix-keeping extension holding its drums. */
  lemma BeatTrace(st: TechnoState, bar: nat, beat: nat, d: TechnoDraws, beatStart: real, now: real)
    requires DrawsInRange(d)
    ensures var r := Offs(HiHat(Onsets(st, bar, beat, d, beatStart), d), beat, now);
      && |r.trace| >= |st.trace| + 4 && r.trace[..|st.trace|] == st.trace
      && DrumsOnAndOff(r.trace[|st.trace|..], beat, d)
  {
    var b := BassChoice(bar, beat, d.bassGate);
    var m := MelodyChoice(bar, beat, d.melodyGate, d.melodyChoice);
    var ons := OnsetMessages(beat, b, m, d);
    var hh := NoteOn(DrumChannel, HiHatNote, d.hihatVelocity);
    var h := HiHat(Onsets(st, bar, beat, d, beatStart), d);
    var offs := OffMessages(beat, Notes(Expired(h.bass, now)), Notes(Expired(h.melody, now)));
    var r := Offs(h, beat, now);
    assert r.trace == ((st.trace + ons) + [hh]) + offs;
    ExtendedThrice(st.trace, ons, [hh], offs);
    OnsetMessagesContent(beat, b, m, d);
    OffMessagesContent(beat, Notes(Expired(h.bass, now)), Notes(Expired(h.melody, now)));
    BeatSegment(ons, offs, beat, d);
  }

  /** The list side of a beat: this beat's notes are added and the due ones swept. */
  lemma BeatLists(st: TechnoState, bar: nat, beat: nat, d: TechnoDraws, beatStart: real, now: real)
    requires DrawsInRange(d)
    ensures var r := Offs(HiHat(Onsets(st, bar, beat, d, beatStart), d), beat, now);
      && r.bass == Live(st.bass + HoldIf(BassChoice(bar, beat, d.bassGate), beatStart + BassHold), now)
      && r.melody == Live(st.melody + HoldIf(MelodyChoice(bar, beat, d.melodyGate, d.melodyChoice), beatStart + MelodyHold), now)
      && (forall a :: a in r.bass ==> !Due(a, now))
      && (forall a :: a in r.melody ==> !Due(a, now))
  {
    var h := HiHat(Onsets(st, bar, beat, d, beatStart), d);
    SweepPartition(h.bass, now);
    SweepPartition(h.melody, now);
  }

  /** The drum messages of one full beat: the kick and the hi-hat on and off, the
      snare on exactly on beats 1 and 3 and then off again. */
  predicate DrumsOnAndOff(seg: seq<Message>, beat: nat, d: TechnoDraws) {
    && NoteOn(DrumChannel, KickNote, d.kickVelocity) in seg
    && NoteOff(DrumChannel, KickNote, 0) in seg
    && NoteOn(DrumChannel, HiHatNote, d.hihatVelocity) in seg
    && NoteOff(DrumChannel, HiHatNote, 0) in seg
    && (NoteOn(DrumChannel, SnareNote, d.snareVelocity) in seg <==> SnareBeat(beat))
    && (SnareBeat(beat) ==> NoteOff(DrumChannel, SnareNote, 0) in seg)
  }

  /** The onsets, the hi-hat and the offs of a beat together sound and release its drums. */
  lemma BeatSegment(ons: seq<Message>, offs: seq<Message>, beat: nat, d: TechnoDraws)
    requires NoteOn(DrumChannel, KickNote, d.kickVelocity) in ons
    requires NoteOn(DrumChannel, SnareNote, d.snareVelocity) in ons <==> SnareBeat(beat)
    requires NoteOff(DrumChannel, KickNote, 0) in offs && NoteOff(DrumChannel, HiHatNote, 0) in offs
    requires SnareBeat(beat) ==> NoteOff(DrumChannel, SnareNote, 0) in offs
    requires forall m :: m in offs ==> m.NoteOff?
    ensures DrumsOnAndOff(ons + [NoteOn(DrumChannel, HiHatNote, d.hihatVelocity)] + offs, beat, d)
  {
    var seg := ons + [NoteOn(DrumChannel, HiHatNote, d.hihatVelocity)] + offs;
    assert NoteOn(DrumChannel, SnareNote, d.snareVelocity) !in offs;
    assert NoteOn(DrumChannel, SnareNote, d.snareVelocity) in seg <==> NoteOn(DrumChannel, SnareNote, d.snareVelocity) in ons;
  }

  /** A trace extended three times keeps its old part as a prefix, and its new part
      is the three extensions in order. */
  lemma ExtendedThrice(a: seq<Message>, x: seq<Message>, y: seq<Message>, z: seq<Message>)
    ensures (((a + x) + y) + z)[..|a|] == a
    ensures (((a + x) + y) + z)[|a|..] == (x + y) + z
  {
    var t := ((a + x) + y) + z;
    assert forall i :: 0 <= i < |a| ==> t[i] == a[i];
    assert forall i :: 0 <= i < |x| ==> t[|a| + i] == x[i];
  }

  // ----- the pairing invariant -----

  /** Every key switched on is switched off already, or is one of the drum notes
      `drums` sounding in the current beat, or sits in the bass or melody list;
      note-offs carry velocity 0. */
  predicate Sounding(st: TechnoState, drums: seq<int>) {
    && OnKeys(st.trace) == OffKeys(st.trace) + Keys(DrumChannel, drums)
         + Keys(BassChannel, Notes(st.bass)) + Keys(MelodyChannel, Notes(st.melody))
    && OffsSilent(st.trace)
  }

  /** Between beats no drum note is sounding. */
  predicate Inv(st: TechnoState) {
    Sounding(st, [])
  }

  lemma OnIfKeys(o: Option<int>, channel: int, velocity: int, offTime: real)
    ensures OnKeys(OnIf(o, channel, velocity)) == Keys(channel, Notes(HoldIf(o, offTime)))
    ensures OffKeys(OnIf(o, channel, velocity)) == multiset{}
    ensures OffsSilent(OnIf(o, channel, velocity))
  {
    if o.Some? {
      assert [NoteOn(channel, o.value, velocity)][1..] == [];
      assert Notes(HoldIf(o, offTime)) == [o.value];
      assert [o.value][1..] == [];
    }
  }

  /** Appending a segment adds its keys to each side. */
  lemma AppendSegment(trace: seq<Message>, seg: seq<Message>)
    ensures OnKeys(trace + seg) == OnKeys(trace) + OnKeys(seg)
    ensures OffKeys(trace + seg) == OffKeys(trace) + OffKeys(seg)
    ensures OffsSilent(trace) && OffsSilent(seg) ==> OffsSilent(trace + seg)
  {
    OnKeysAppend(trace, seg);
    OffKeysAppend(trace, seg);
    if OffsSilent(trace) && OffsSilent(seg) {
      OffsSilentAppend(trace, seg);
    }
  }

  lemma KeysSingle(channel: int, n: int)
    ensures Keys(channel, [n]) == multiset{Key(channel, n)}
  {
    assert [n][1..] == [];
  }

  lemma DrumOnsetKeys(beat: nat, d: TechnoDraws)
    ensures OnKeys(DrumOnsetMessages(beat, d)) == Keys(DrumChannel, DrumOnsets(beat))
    ensures OffKeys(DrumOnsetMessages(beat, d)) == multiset{}
    ensures OffsSilent(DrumOnsetMessages(beat, d))
  {
    var kick := NoteOn(DrumChannel, KickNote, d.kickVelocity);
    SendOne([], kick);
    assert [] + [kick] == [kick];
    if SnareBeat(beat) {
      var snare := NoteOn(DrumChannel, SnareNote, d.snareVelocity);
      assert DrumOnsetMessages(beat, d) == [kick] + [snare];
      SendOne([kick], snare);
      assert [KickNote, SnareNote][1..] == [SnareNote];
      KeysSingle(DrumChannel, SnareNote);
    } else {
      assert DrumOnsetMessages(beat, d) == [kick];
      KeysSingle(DrumChannel, KickNote);
    }
  }

  /** The onsets switch on exactly the drum onsets and the notes added to the lists. */
  lemma OnsetMessagesKeys(beat: nat, b: Option<int>, m: Option<int>, d: TechnoDraws, bassOff: real, melodyOff: real)
    ensures OnKeys(OnsetMessages(beat, b, m, d)) == Keys(DrumChannel, DrumOnsets(beat))
              + Keys(BassChannel, Notes(HoldIf(b, bassOff))) + Keys(MelodyChannel, Notes(HoldIf(m, melodyOff)))
    ensures OffKeys(OnsetMessages(beat, b, m, d)) == multiset{}
    ensures OffsSilent(OnsetMessages(beat, b, m, d))
  {
    var drums := DrumOnsetMessages(beat, d);
    var bOn := OnIf(b, BassChannel, d.bassVelocity);
    var mOn := OnIf(m, MelodyChannel, d.melodyVelocity);
    DrumOnsetKeys(beat, d);
    OnIfKeys(b, BassChannel, d.bassVelocity, bassOff);
    OnIfKeys(m, MelodyChannel, d.melodyVelocity, melodyOff);
    AppendSegment(drums, bOn);
    AppendSegment(drums + bOn, mOn);
  }

  lemma OnsetsSound(st: TechnoState, bar: nat, beat: nat, d: TechnoDraws, beatStart: real)
    requires DrawsInRange(d) && Inv(st)
    ensures Sounding(Onsets(st, bar, beat, d, beatStart), DrumOnsets(beat))
  {
    var b := BassChoice(bar, beat, d.bassGate);
    var m := MelodyChoice(bar, beat, d.melodyGate, d.melodyChoice);
    var bHold := HoldIf(b, beatStart + BassHold);
    var mHold := HoldIf(m, beatStart + MelodyHold);
    var seg := OnsetMessages(beat, b, m, d);
    AppendSegment(st.trace, seg);
    OnsetMessagesKeys(beat, b, m, d, beatStart + BassHold, beatStart + MelodyHold);
    NotesAppend(st.bass, bHold);
    NotesAppend(st.melody, mHold);
    KeysAppend(BassChannel, Notes(st.bass), Notes(bHold));
    KeysAppend(MelodyChannel, Notes(st.melody), Notes(mHold));
  }

  lemma HiHatSound(st: TechnoState, d: TechnoDraws, drums: seq<int>)
    requires DrawsInRange(d) && Sounding(st, drums)
    ensures Sounding(HiHat(st, d), drums + [HiHatNote])
  {
    SendOne(st.trace, NoteOn(DrumChannel, HiHatNote, d.hihatVelocity));
    KeysAppend(DrumChannel, drums, [HiHatNote]);
    KeysSingle(DrumChannel, HiHatNote);
  }

  /** The offs switch off exactly the drum notes and the due list entries. */
  lemma OffMessagesKeys(beat: nat, bassDue: seq<int>, melodyDue: seq<int>)
    ensures OnKeys(OffMessages(beat, bassDue, melodyDue)) == multiset{}
    ensures OffKeys(OffMessages(beat, bassDue, melodyDue)) == Keys(DrumChannel, DrumOffNotes(beat))
              + Keys(BassChannel, bassDue) + Keys(MelodyChannel, melodyDue)
    ensures OffsSilent(OffMessages(beat, bassDue, melodyDue))
  {
    var dr := Releases(DrumChannel, DrumOffNotes(beat));
    var br := Releases(BassChannel, bassDue);
    var mr := Releases(MelodyChannel, melodyDue);
    ReleasesKeys(DrumChannel, DrumOffNotes(beat));
    ReleasesKeys(BassChannel, bassDue);
    ReleasesKeys(MelodyChannel, melodyDue);
    AppendSegment(dr, br);
    AppendSegment(dr + br, mr);
  }

  /** The drum notes released are those switched on in the beat, in another order. */
  lemma DrumKeysMatch(beat: nat)
    ensures Keys(DrumChannel, DrumOnsets(beat) + [HiHatNote]) == Keys(DrumChannel, DrumOffNotes(beat))
  {
    var snare := if SnareBeat(beat) then [SnareNote] else [];
    assert DrumOnsets(beat) + [HiHatNote] == [KickNote] + snare + [HiHatNote];
    assert DrumOffNotes(beat) == [KickNote] + [HiHatNote] + snare;
    KeysAppend(DrumChannel, [KickNote] + snare, [HiHatNote]);
    KeysAppend(DrumChannel, [KickNote], snare);
    KeysAppend(DrumChannel, [KickNote] + [HiHatNote], snare);
    KeysAppend(DrumChannel, [KickNote], [HiHatNote]);
  }

  lemma OffsSound(st: TechnoState, beat: nat, now: real)
    requires Sounding(st, DrumOnsets(beat) + [HiHatNote])
    ensures Inv(Offs(st, beat, now))
  {
    var bassDue := Notes(Expired(st.bass, now));
    var melodyDue := Notes(Expired(st.melody, now));
    AppendSegment(st.trace, OffMessages(beat, bassDue, melodyDue));
    OffMessagesKeys(beat, bassDue, melodyDue);
    DrumKeysMatch(beat);
    SweepKeys(BassChannel, st.bass, now);
    SweepKeys(MelodyChannel, st.melody, now);
  }

  /** A full beat sends a note-off for each of its drum note-ons before it ends and
      keeps every bass or melody note accounted for. */
  lemma BeatKeepsInv(st: TechnoState, bar: nat, beat: nat, d: TechnoDraws, beatStart: real, now: real)
    requires DrawsInRange(d) && Inv(st)
    ensures Inv(Beat(st, bar, beat, d, beatStart, now))
  {
    OnsetsSound(st, bar, beat, d, beatStart);
    HiHatSound(Onsets(st, bar, beat, d, beatStart), d, DrumOnsets(beat));
    OffsSound(HiHat(Onsets(st, bar, beat, d, beatStart), d), beat, now);
  }

  lemma {:induction false} KeysOnChannel(channel: int, notes: seq<int>, k: Key)
    requires k.channel != channel
    ensures Keys(channel, notes)[k] == 0
  {
    if notes != [] {
      KeysOnChannel(channel, notes[1..], k);
    }
  }

  // ----- the loop -----

  /** Inputs for n beats: draws, each beat's start time and the clock reading at its sweep. */
  predicate LoopInputs(n: nat, ds: seq<TechnoDraws>, starts: seq<real>, nows: seq<real>) {
    |ds| == n && |starts| == n && |nows| == n && forall i :: 0 <= i < n ==> DrawsInRange(ds[i])
  }

  /** The beats of a run in order; the run only appends to the trace, at least four
      messages a beat. */
  function RunBeats(st: TechnoState, ps: seq<BeatClock.Pos>, ds: seq<TechnoDraws>, starts: seq<real>, nows: seq<real>): (r: TechnoState)
    requires LoopInputs(|ps|, ds, starts, nows)
    ensures Extends(r.trace, st.trace, 4 * |ps|)
    decreases |ps|
  {
    if ps == [] then st
    else
      var st1 := Beat(st, ps[0].bar, ps[0].beat, ds[0], starts[0], nows[0]);
      LoopInputsTail(ps, ds, starts, nows);
      var r := RunBeats(st1, ps[1..], ds[1..], starts[1..], nows[1..]);
      ExtendsTrans(r.trace, st1.trace, st.trace, 4 * (|ps| - 1), 4);
      r
  }

  /** `long` starts with `short` and has at least k more messages. */
  predicate Extends(long: seq<Message>, short: seq<Message>, k: nat) {
    |long| >= |short| + k && long[..|short|] == short
  }

  lemma ExtendsTrans(c: seq<Message>, b: seq<Message>, a: seq<Message>, m: nat, n: nat)
    requires Extends(c, b, m) && Extends(b, a, n)
    ensures Extends(c, a, m + n)
  {
    assert c[..|a|] == c[..|b|][..|a|];
  }

  /** The beats after the first are again a run's inputs. */
  lemma LoopInputsTail(ps: seq<BeatClock.Pos>, ds: seq<TechnoDraws>, starts: seq<real>, nows: seq<real>)
    requires LoopInputs(|ps|, ds, starts, nows) && ps != []
    ensures LoopInputs(|ps| - 1, ds[1..], starts[1..], nows[1..])
  {
    forall i | 0 <= i < |ps| - 1 ensures DrawsInRange(ds[1..][i]) {
      assert ds[1..][i] == ds[i + 1];
    }
  }

  lemma {:induction false} RunBeatsKeepsInv(st: TechnoState, ps: seq<BeatClock.Pos>, ds: seq<TechnoDraws>, starts: seq<real>, nows: seq<real>)
    requires LoopInputs(|ps|, ds, starts, nows) && Inv(st)
    ensures Inv(RunBeats(st, ps, ds, starts, nows))
    decreases |ps|
  {
    if ps != [] {
      BeatKeepsInv(st, ps[0].bar, ps[0].beat, ds[0], starts[0], nows[0]);
      LoopInputsTail(ps, ds, starts, nows);
      RunBeatsKeepsInv(Beat(st, ps[0].bar, ps[0].beat, ds[0], starts[0], nows[0]), ps[1..], ds[1..], starts[1..], nows[1..]);
    }
  }

  // ----- shutdown -----

  /** The shutdown flush, as written: a note-off for every entry left in the bass list,
      then for every entry left in the melody list. */
  function Shutdown(st: TechnoState): (r: TechnoState)
    ensures r.bass == [] && r.melody == []
    ensures |r.trace| == |st.trace| + |st.bass| + |st.melody|
  {
    TechnoState(st.trace + Releases(BassChannel, Notes(st.bass)) + Releases(MelodyChannel, Notes(st.melody)), [], [])
  }

  /** Shutdown releases exactly what is left in the two lists. */
  lemma ShutdownReleasesLists(st: TechnoState, drums: seq<int>)
    requires Sounding(st, drums)
    ensures Sounding(Shutdown(st), drums)
  {
    var bOffs := Releases(BassChannel, Notes(st.bass));
    var mOffs := Releases(MelodyChannel, Notes(st.melody));
    ReleasesKeys(BassChannel, Notes(st.bass));
    ReleasesKeys(MelodyChannel, Notes(st.melody));
    OnKeysAppend(st.trace + bOffs, mOffs);
    OnKeysAppend(st.trace, bOffs);
    OffKeysAppend(st.trace + bOffs, mOffs);
    OffKeysAppend(st.trace, bOffs);
    OffsSilentAppend(st.trace, bOffs);
    OffsSilentAppend(st.trace + bOffs, mOffs);
    assert Notes([]) == [];
  }

  /** When the loop stops between beats, every bass and melody note appended during
      the run, and every drum note, has received exactly one note-off. */
  lemma StopBetweenBeatsPaired(lc0: nat, n: nat, ds: seq<TechnoDraws>, starts: seq<real>, nows: seq<real>)
    requires LoopInputs(n, ds, starts, nows)
    ensures var r := Shutdown(RunBeats(Silence, BeatClock.Positions(lc0, n), ds, starts, nows));
            Balanced(r.trace) && OffsSilent(r.trace)
  {
    assert Inv(Silence);
    RunBeatsKeepsInv(Silence, BeatClock.Positions(lc0, n), ds, starts, nows);
    ShutdownReleasesLists(RunBeats(Silence, BeatClock.Positions(lc0, n), ds, starts, nows), []);
  }

  // ----- interrupted beats -----

  /** Where the keyboard interrupt lands: between beats (or in the sleep that pads
      a beat to its length), in the half-beat sleep before the hi-hat, or in the
      short sleep before the note-offs. */
  datatype Ending = BetweenBeats | InHalfBeatSleep | InNoteOffDelay

  /** The state when the interrupt lands after n full beats, with the unfinished
      beat (if any) played at position p with draws d. Between beats nothing more
      happens; inside a beat, its note-ons (the kick among them) went out and none
      of its note-offs; in the note-off delay the hi-hat was the last message. */
  function Interrupted(st: TechnoState, p: BeatClock.Pos, d: TechnoDraws, beatStart: real, e: Ending): (r: TechnoState)
    requires DrawsInRange(d)
    ensures |r.trace| >= |st.trace| && r.trace[..|st.trace|] == st.trace
    ensures e == BetweenBeats ==> r == st
    ensures e != BetweenBeats ==> NoteOn(DrumChannel, KickNote, d.kickVelocity) in r.trace[|st.trace|..]
    ensures forall m :: m in r.trace[|st.trace|..] ==> m.NoteOn?
    ensures e == InNoteOffDelay ==> r.trace[|r.trace| - 1] == NoteOn(DrumChannel, HiHatNote, d.hihatVelocity)
  {
    match e
    case BetweenBeats => st
    case InHalfBeatSleep => Onsets(st, p.bar, p.beat, d, beatStart)
    case InNoteOffDelay => HiHat(Onsets(st, p.bar, p.beat, d, beatStart), d)
  }

  /** The drum notes left switched on by an interrupt at `e` in a beat on `beat`. */
  function DrumsLeftOn(beat: nat, e: Ending): seq<int> {
    match e
    case BetweenBeats => []
    case InHalfBeatSleep => DrumOnsets(beat)
    case InNoteOffDelay => DrumOnsets(beat) + [HiHatNote]
  }

  lemma InterruptedSound(st: TechnoState, p: BeatClock.Pos, d: TechnoDraws, beatStart: real, e: Ending)
    requires DrawsInRange(d) && Inv(st)
    ensures Sounding(Interrupted(st, p, d, beatStart, e), DrumsLeftOn(p.beat, e))
  {
    match e
    case BetweenBeats =>
    case InHalfBeatSleep => OnsetsSound(st, p.bar, p.beat, d, beatStart);
    case InNoteOffDelay =>
      OnsetsSound(st, p.bar, p.beat, d, beatStart);
      HiHatSound(Onsets(st, p.bar, p.beat, d, beatStart), d, DrumOnsets(p.beat));
  }

  /** A whole run as the source writes it: n full beats, the interrupt, the flush.
      The flush empties both lists; an interrupt inside a beat has sent its kick. */
  function RunAsWritten(lc0: nat, n: nat, ds: seq<TechnoDraws>, starts: seq<real>, nows: seq<real>,
                        d: TechnoDraws, beatStart: real, e: Ending): (r: TechnoState)
    requires LoopInputs(n, ds, starts, nows) && DrawsInRange(d)
    ensures r.bass == [] && r.melody == []
    ensures |r.trace| >= 4 * n
    ensures e != BetweenBeats ==> NoteOn(DrumChannel, KickNote, d.kickVelocity) in r.trace
  {
    var st := RunBeats(Silence, BeatClock.Positions(lc0, n), ds, starts, nows);
    Shutdown(Interrupted(st, BeatClock.PosOf(lc0, n), d, beatStart, e))
  }

  /** The kick is among the drum notes an interrupt inside a beat leaves on, once. */
  lemma KickLeftOn(beat: nat, e: Ending)
    requires e != BetweenBeats
    ensures Keys(DrumChannel, DrumsLeftOn(beat, e))[Key(DrumChannel, KickNote)] == 1
  {
    var snare := if SnareBeat(beat) then [SnareNote] else [];
    var rest := if e == InNoteOffDelay then snare + [HiHatNote] else snare;
    assert DrumsLeftOn(beat, e) == [KickNote] + rest;
    KeysAppend(DrumChannel, [KickNote], rest);
    KeysSingle(DrumChannel, KickNote);
    KeysAppend(DrumChannel, snare, [HiHatNote]);
    KeysSingle(DrumChannel, HiHatNote);
    KeysSingle(DrumChannel, SnareNote);
  }

  /** The flush as written, after an interrupt inside a beat (the half-beat sleep
      before the hi-hat or the short delay before the note-offs): the kick of that beat has been switched on
      once more than off, so the trace is not balanced. Ctrl+C during the very first
      half-beat sleep already shows it. */
  lemma InterruptLeavesKickOn(lc0: nat, n: nat, ds: seq<TechnoDraws>, starts: seq<real>, nows: seq<real>,
                              d: TechnoDraws, beatStart: real, e: Ending)
    requires LoopInputs(n, ds, starts, nows) && DrawsInRange(d)
    requires e != BetweenBeats
    ensures var r := RunAsWritten(lc0, n, ds, starts, nows, d, beatStart, e);
            OnKeys(r.trace)[Key(DrumChannel, KickNote)] == OffKeys(r.trace)[Key(DrumChannel, KickNote)] + 1
            && !Balanced(r.trace)
  {
    var st := RunBeats(Silence, BeatClock.Positions(lc0, n), ds, starts, nows);
    var p := BeatClock.PosOf(lc0, n);
    assert Inv(Silence);
    RunBeatsKeepsInv(Silence, BeatClock.Positions(lc0, n), ds, starts, nows);
    InterruptedSound(st, p, d, beatStart, e);
    ShutdownReleasesLists(Interrupted(st, p, d, beatStart, e), DrumsLeftOn(p.beat, e));
    KickLeftOn(p.beat, e);
    assert Notes([]) == [];
  }

  /** The flush as written is enough when the interrupt lands between beats. */
  lemma AsWrittenPairedBetweenBeats(lc0: nat, n: nat, ds: seq<TechnoDraws>, starts: seq<real>, nows: seq<real>,
                                    d: TechnoDraws, beatStart: real)
    requires LoopInputs(n, ds, starts, nows) && DrawsInRange(d)
    ensures Balanced(RunAsWritten(lc0, n, ds, starts, nows, d, beatStart, BetweenBeats).trace)
  {
    StopBetweenBeatsPaired(lc0, n, ds, starts, nows);
  }

  /** The corrected flush: also release the drum notes the interrupted beat had
      switched on, then the bass and melody lists. */
  function ShutdownAll(st: TechnoState, drums: seq<int>): (r: TechnoState)
    ensures r.bass == [] && r.melody == []
    ensures |r.trace| == |st.trace| + |drums| + |st.bass| + |st.melody|
  {
    Shutdown(st.(trace := st.trace + Releases(DrumChannel, drums)))
  }

  /** With no drum note left on, the corrected flush is the program's flush. */
  lemma ShutdownNothingLeft(st: TechnoState)
    ensures ShutdownAll(st, []) == Shutdown(st)
  {
    assert Releases(DrumChannel, []) == [];
    assert st.trace + [] == st.trace;
  }

  /** With the corrected flush, wherever the interrupt lands, every note switched on
      during the run receives exactly one note-off, and all note-offs are silent. */
  lemma CorrectedShutdownPaired(st: TechnoState, drums: seq<int>)
    requires Sounding(st, drums)
    ensures Balanced(ShutdownAll(st, drums).trace) && OffsSilent(ShutdownAll(st, drums).trace)
  {
    var offs := Releases(DrumChannel, drums);
    ReleasesKeys(DrumChannel, drums);
    OnKeysAppend(st.trace, offs);
    OffKeysAppend(st.trace, offs);
    OffsSilentAppend(st.trace, offs);
    var st' := st.(trace := st.trace + offs);
    assert Sounding(st', []);
    ShutdownReleasesLists(st', []);
  }

  /** A whole run with the corrected flush: it sends exactly the note-offs of the
      drums the interrupted beat left on on top of what the program sends, and is
      the program's run when the interrupt lands between beats. */
  function RunCorrected(lc0: nat, n: nat, ds: seq<TechnoDraws>, starts: seq<real>, nows: seq<real>,
                        d: TechnoDraws, beatStart: real, e: Ending): (r: TechnoState)
    requires LoopInputs(n, ds, starts, nows) && DrawsInRange(d)
    ensures r.bass == [] && r.melody == []
    ensures |r.trace| == |RunAsWritten(lc0, n, ds, starts, nows, d, beatStart, e).trace|
                         + |DrumsLeftOn(BeatClock.PosOf(lc0, n).beat, e)|
    ensures e == BetweenBeats ==> r == RunAsWritten(lc0, n, ds, starts, nows, d, beatStart, e)
  {
    var st := RunBeats(Silence, BeatClock.Positions(lc0, n), ds, starts, nows);
    var p := BeatClock.PosOf(lc0, n);
    ShutdownNothingLeft(Interrupted(st, p, d, beatStart, e));
    ShutdownAll(Interrupted(st, p, d, beatStart, e), DrumsLeftOn(p.beat, e))
  }

  /** The loop's note-pairing guarantee with the corrected flush: however many beats
      ran and wherever the interrupt landed, every note-on has exactly one note-off. */
  lemma TechnoNotesPaired(lc0: nat, n: nat, ds: seq<TechnoDraws>, starts: seq<real>, nows: seq<real>,
                          d: TechnoDraws, beatStart: real, e: Ending)
    requires LoopInputs(n, ds, starts, nows) && DrawsInRange(d)
    ensures Balanced(RunCorrected(lc0, n, ds, starts, nows, d, beatStart, e).trace)
    ensures OffsSilent(RunCorrected(lc0, n, ds, starts, nows, d, beatStart, e).trace)
  {
    var st := RunBeats(Silence, BeatClock.Positions(lc0, n), ds, starts, nows);
    var p := BeatClock.PosOf(lc0, n);
    assert Inv(Silence);
    RunBeatsKeepsInv(Silence, BeatClock.Positions(lc0, n), ds, starts, nows);
    InterruptedSound(st, p, d, beatStart, e);
    CorrectedShutdownPaired(Interrupted(st, p, d, beatStart, e), DrumsLeftOn(p.beat, e));
  }
}
